=== FILE: README.md ===
# Terminal chat relay: a Dafny model

The system is a small chat service. A relay server accepts TCP connections.
Each connection registers under an identifier. After that it may send one-off
messages to other identifiers. It may also ask another identifier for a chat,
accept or reject such a request, and exchange chat messages inside an
established pair. The client is a curses terminal interface. It has a
one-line editor with command history and a scrollable log. A modal dialog
asks the user to accept or reject an incoming chat request.

The model has four modules:

- `Server` (server.dfy) models the connection handler and the three
  process-wide tables it shares with every other handler:
  - `clients`: id to connection;
  - `sessions`: user to chat peer;
  - `pending`: chat target to requester.

  Each handler step is a method of class `Relay`. A step is the
  registration, the handling of one line, or the cleanup, and the model
  treats it as atomic, although the code awaits writes inside some steps
  (see "## Left out"). Each
  method is proved equal to a step function on `RelayState` values. The
  properties of the relay are lemmas about those step functions. The frames
  the relay writes, and the connections it closes, are returned as a
  sequence of `Action`s, in order. A connection is a number standing for
  its stream writer.
- `Widgets` (widgets.dfy) models a `Button` with its screen bounds and
  hit test. It also models a `Modal` holding a row of buttons with a
  wrapping selection.
- `CursesUi` (curses_ui.dfy) models the interface state as class
  `CursesUI`:
  - the log, the history, the buffer, the cursor, the scroll offset and the
    modal;
  - the key handler and history navigation;
  - `log_line`;
  - the part of `_draw_log` that cuts log lines into rows and picks the
    window of rows shown.

  Python's `str.strip`, `str.splitlines` and `deque(maxlen=…)` are written
  out as functions, with their meaning proved.
- `Wrappers` (wrappers.dfy) holds `Option`. It stands for an absent JSON
  field and for Python's `None`.

Python truthiness is modelled literally. An empty id, peer or requester
string counts as absent wherever the code tests `if x` or `if not x`.

Four behaviours of server.py that the model keeps as written:

- **Empty id.** A `register` frame whose `id` is the empty string is
  accepted and registered. Cleanup then never removes that entry, because
  it tests `if client_id`.
- **Order of checks in `chat_request`.** The target's registration is
  checked before either party's session. An unregistered target yields
  `nodeliver` even when the requester is already chatting.
- **Session symmetry.** The session table is not kept symmetric.
  `chat_accept` does not re-check either party, so one id can end up named
  by a peer it no longer names (`Server.AcceptCanBreakSymmetry`).
  Symmetry is preserved by cleanup, and by an accept between two idle ids.
- **Invalid first line.** A first line that is valid JSON but not an
  object is answered with `server_exception`, not `must_register_first`.

## Model

| member | source | states |
|---|---|---|
| Server.Truncate | server.py:29 | the registered id is the prefix of the given id of length min(len, 128) |
| Server.Relay.constructor | server.py:4-6 | the three tables start empty |
| Server.Relay.Register | server.py:16-39 | registration leaves the tables, frames and registered id exactly as the registration step says, and keeps the tables well formed |
| Server.RefusedFirstLineChangesNothing | server.py:16-27 | a first line that is not a `register` object with an `id` registers nothing and changes no table; malformed JSON gets `invalid_json` then close, a wrong object gets `must_register_first` then close |
| Server.RegistrationEvictsPreviousHolder | server.py:29-39 | after registration the truncated id maps to the new connection, every other registration and both chat tables are unchanged, a previous holder is sent `signed_in_elsewhere` and closed first, and the new connection's last frame is `registered` |
| Server.Relay.HandleSend | server.py:53-63 | `send` writes exactly the frames of the send step and changes no table |
| Server.SendDeliversOnlyToRegistered | server.py:53-63 | a `deliver` frame goes only to the connection registered for a non-empty target and carries the sender's id and payload; with the target registered the output is exactly that `deliver` followed by `sent` to the sender; otherwise the sender gets only `missing_to` or `nodeliver`; no table changes |
| Server.Relay.HandleChatRequest | server.py:64-76 | `chat_request` updates the tables and writes frames exactly as the request step says, keeping them well formed |
| Server.SelfRequestIsInvalid | server.py:65-68 | a request with no target, or to oneself, gets `invalid_chat_target` and changes nothing |
| Server.RequestChecksRegistrationFirst | server.py:69-73 | an unregistered target yields `nodeliver` whatever the session table holds, and changes nothing |
| Server.RequestToRegisteredTarget | server.py:69-76 | for a registered target other than oneself: if either party has a truthy session, `already_in_chat` and nothing changes; otherwise the target's pending entry becomes the requester, no other table changes, and only the target is sent `chat_request` |
| Server.LaterRequestOverwrites | server.py:75-76 | a second request to the same idle target replaces the pending requester, and only the target is told |
| Server.Relay.HandleChatAccept | server.py:77-88 | `chat_accept` updates the tables and writes frames exactly as the accept step says, keeping them well formed |
| Server.AcceptWritesPair | server.py:77-88 | accept always drops the acceptor's pending entry and no other; with the requester registered, both session entries are written as a pair, other sessions survive, and both sides get `chat_accept`; otherwise nothing is sent and sessions are untouched |
| Server.AcceptWithoutRequest | server.py:78-81 | with no truthy pending entry, accept gets `no_pending_chat` and changes nothing |
| Server.AcceptKeepsSymmetryWhenIdle | server.py:82-88 | an accept between two ids that have no session keeps a symmetric session table symmetric |
| Server.AcceptCanBreakSymmetry | server.py:64-88 | a asks b, c asks a, a accepts, b accepts: the table is no longer symmetric, c names a but gets `not_in_chat` messaging a and `already_in_chat` requesting any other registered id |
| Server.Relay.HandleChatReject | server.py:89-96 | `chat_reject` updates the tables and writes frames exactly as the reject step says, keeping them well formed |
| Server.RejectAlwaysAcknowledges | server.py:89-96 | reject drops the rejecter's pending entry and no other, leaves sessions and registrations alone, writes one or two frames and ends with the `chat request rejected` notice; the requester is told if and only if one was pending and is still registered |
| Server.Relay.HandleChatMessage | server.py:97-105 | `chat_message` writes exactly the frames of the message step and changes no table |
| Server.ChatMessageOnlyWithinPair | server.py:97-105 | a chat message is forwarded only to the registered peer of a mutual pair; the sender gets `not_in_chat` if and only if the two do not name each other; with the peer registered the only frame is the `chat_message` to the peer, carrying the sender and payload; with the peer gone it is dropped silently |
| Server.NegotiationOpensChat | server.py:64-105 | a asks b and b accepts: the request reaches b, both sides get `chat_accept`, nothing stays pending for b, and chat messages then flow both ways |
| Server.HarmlessLinesKeepConnection | server.py:46-109 | malformed JSON gets `invalid_json`, `ping` gets `pong`, an unknown type gets `unknown_type`; none changes a table or ends the read loop |
| Server.DispatchKeepsClients | server.py:52-109 | no dispatched frame changes the registry |
| Server.Relay.Dispatch | server.py:42-112 | one read-loop line updates the tables, writes frames and ends the loop exactly as the dispatch step says; a line whose handling raises gets `server_exception` and ends the loop |
| Server.StepsKeepWellFormed | server.py:13-134 | registration, every dispatched line and cleanup keep the tables well formed: no empty or self-addressed pending entries, no empty or self-paired sessions |
| Server.Relay.Cleanup | server.py:115-134 | cleanup updates the tables and closes the connection exactly as the cleanup step says, keeping them well formed |
| Server.OwnerCleanupForgetsId | server.py:116-130 | the owner's cleanup unregisters its id, removes its session and its truthy peer's session, keeps every other registration, session and pending request not naming it, and removes every pending request naming it; the output is `chat ended with <id>` to a registered peer other than itself, then the close, or the close alone |
| Server.NonOwnerCleanupOnlyCloses | server.py:116 | a handler that does not own its id (evicted, never registered, or registered under the empty id) changes no table and only closes its connection |
| Server.CleanupKeepsSymmetry | server.py:119-121 | cleanup keeps a symmetric session table symmetric |
| Server.DisconnectEndsChat | server.py:116-130 | when one side of a pair disconnects, the other is told `chat ended with <id>`, both session entries go, and a later message from the other side gets `not_in_chat` |
| Server.Relay.HandleClient | server.py:13-134 | the tables, every action in order and the registered id are exactly `ConnectionRun`: registration of the first line, the read loop if it registered, then cleanup; a whole connection ends by closing it; a refused connection leaves the tables as they were; after a non-empty id's handler ends, the registry is the old one minus that id, the id has no session entry and no pending entry names it; an empty id stays registered to the connection |
| Server.Relay.ReadLines | server.py:42-112 | the read loop's tables and actions are exactly `ReadLoop`: each line dispatched in order until one ends the loop, running out of lines being end of stream |
| Server.ReadLoopKeepsClients | server.py:42-112 | the read loop never changes the registry and keeps the tables well formed |
| Server.ConnectionForgetsItsId | server.py:13-134 | a whole connection, for every sequence of lines: ends with the close, keeps the tables well formed, changes nothing when refused, leaves the registry minus its non-empty id, with no session entry for it and no pending entry naming it (another id's session entry whose value is the id can survive), and leaves an empty id registered |
| Widgets.Button.constructor | ui/widgets.py:4-6 | a new button has the label and zero bounds, and contains no point |
| Widgets.Button.SetBounds | ui/widgets.py:8-9 | after `set_bounds` a point is inside the button if and only if it lies in the half-open rectangle given |
| Widgets.Button.Contains | ui/widgets.py:11-13 | a point is inside if and only if its row and column offsets from the corner are in [0, h) and [0, w); bounds with no height or width contain nothing |
| Widgets.Modal.constructor | ui/widgets.py:16-20 | a new modal has the title, message and buttons given and selects the first button |
| Widgets.NextIndex | ui/widgets.py:22-23 | `(i + 1) % n` stays in [0, n), moves one place forward, and wraps from the last to the first |
| Widgets.PrevIndex | ui/widgets.py:25-26 | `(i - 1) % n` stays in [0, n), moves one place back, and wraps from the first to the last |
| Widgets.Modal.Next | ui/widgets.py:22-23 | `next` selects the following button, wrapping, and keeps the selection valid |
| Widgets.Modal.Prev | ui/widgets.py:25-26 | `prev` selects the preceding button, wrapping, and keeps the selection valid |
| Widgets.PrevUndoesNext | ui/widgets.py:22-26 | `prev` undoes `next` and `next` undoes `prev` |
| Widgets.AdvanceWithoutWrap | ui/widgets.py:22-23 | `k` presses of `next` short of the end move the selection `k` places |
| Widgets.AdvanceSplits | ui/widgets.py:22-23 | `a + b` presses of `next` are `a` presses followed by `b` |
| Widgets.FullCycle | ui/widgets.py:22-23 | one press of `next` per button brings the selection back to where it started |
| Widgets.Modal.FindButton | ui/curses_ui.py:218-223 | the click scan finds the first button, in order, that contains the point, or reports that none does |
| CursesUi.Newest | ui/curses_ui.py:13-15 | a bounded deque holds the newest min(len, cap) entries |
| CursesUi.DequeAppendKeepsNewest | ui/curses_ui.py:13-15 | appending to a bounded deque keeps exactly the newest `cap` entries of everything appended |
| CursesUi.NewestAppend | ui/curses_ui.py:13-15 | appending after trimming to the newest `cap` equals trimming after appending |
| CursesUi.DequeAppendFrom | ui/curses_ui.py:13-15 | an append keeps only old entries and the new one |
| CursesUi.CursesUI.constructor | ui/curses_ui.py:8-26 | the interface starts with an empty log, history, buffer and scroll offset, no history index, no pending request and no modal |
| CursesUi.CursesUI.LogLine | ui/curses_ui.py:175-177 | `log_line` leaves the log holding the newest 2000 of the old lines followed by the lines of `s` (one empty line for empty `s`) |
| CursesUi.LogStep | ui/curses_ui.py:176-177 | each append in `log_line` keeps the log equal to the newest lines of everything appended so far |
| CursesUi.LineEnd | ui/curses_ui.py:176 | a line ends at the first line break at or after its start, or at the end of the text |
| CursesUi.NextLineStart | ui/curses_ui.py:176 | the next line starts one or two characters past the break, and two exactly when the break is "\r" followed by "\n", which counts as one break |
| CursesUi.SplitLinesHaveNoBreaks | ui/curses_ui.py:176 | no line from `splitlines` contains a line break |
| CursesUi.SplitLinesKeepsText | ui/curses_ui.py:176 | the lines from `splitlines`, joined, are the text with its line breaks removed |
| CursesUi.SplitLinesEmpty | ui/curses_ui.py:176 | only the empty text has no lines, so `log_line` always appends at least one line |
| CursesUi.CursesUI.ShowChatRequest | ui/curses_ui.py:185-191 | a chat request records its sender and opens a fresh "chat request" modal with the message "<id> wants to chat." and the buttons accept and reject, accept selected |
| CursesUi.WrapWidth | ui/curses_ui.py:90 | the wrap width is the screen width minus 1, or 1 when the screen is narrower than 2 columns |
| CursesUi.ChunksRejoin | ui/curses_ui.py:91-98 | the rows one log line is cut into join back into the line, none is wider than the wrap width, a non-empty line gives no empty row, and an empty line is one empty row |
| CursesUi.RowsFit | ui/curses_ui.py:89-98 | no row of the wrapped log is wider than the wrap width |
| CursesUi.WrapLog | ui/curses_ui.py:87-98 | the wrapping loop yields each log line's rows, line after line |
| CursesUi.CursesUI.VisibleRows | ui/curses_ui.py:100-103 | the rows shown never exceed the window height and are the window of rows ending `scroll_offset` rows before the end; with no scroll they are the last min(height, rows) rows |
| CursesUi.SkipSpaces | ui/curses_ui.py:229 | the scan for the start of the stripped text passes only whitespace and stops at the first non-whitespace character or the end |
| CursesUi.TrimEnd | ui/curses_ui.py:229 | the scan for the end of the stripped text passes only whitespace backwards and stops after the last non-whitespace character |
| CursesUi.Strip | ui/curses_ui.py:229 | the stripped line is empty or starts and ends with a non-whitespace character |
| CursesUi.StripKeepsMiddle | ui/curses_ui.py:229 | `strip` keeps one contiguous piece of the text and removes only whitespace before and after it |
| CursesUi.StripKeepsPrintable | ui/curses_ui.py:229-231 | stripping printable text gives printable text, so the history stays printable |
| CursesUi.StripIdempotent | ui/curses_ui.py:229 | stripping twice is stripping once |
| CursesUi.CursesUI.HandleKey | ui/curses_ui.py:193-288 | with a modal open, a key never touches the editor, history or scroll, and each key does what `ModalKey` states: Left/Shift-Tab and Right/Tab move the selection, Enter closes the modal returning `__MODAL__:` plus the selected label, Esc closes it, a button-1 click chooses the first button hit, any other key changes nothing; without one, the modal stays closed and the editor's new state and the value returned are exactly the key's `EditorStep`; only Enter (or a modal button click) returns a value; the log never changes |
| CursesUi.CursesUI.ModalKey | ui/curses_ui.py:194-226 | Left/Shift-Tab select the previous button and Right/Tab the next, wrapping; Enter closes the modal returning `__MODAL__:` plus the selected label; Esc closes it returning nothing; a button-1 click on a button selects and chooses the first button hit; anything else changes nothing |
| CursesUi.CursesUI.EditorKey | ui/curses_ui.py:228-288 | the editor's new state and the value returned are exactly the key's `EditorStep`, so the step lemmas below apply; only Enter returns, the stripped line; no other key changes the history; editing keys leave the history index and scroll alone; cursor and page keys other than up/down leave the line alone |
| CursesUi.CursesUI.SubmitLine | ui/curses_ui.py:228-235 | the editor's new state is `SubmitEffect` of the old; Enter returns the stripped line (possibly empty), appends it to the 300-entry history only when non-empty, clears the line and ends history browsing |
| CursesUi.CursesUI.NavigateKey | ui/curses_ui.py:237-256 | the editor's new state is `NavigateEffect` of the old; Left/Right move the cursor within the line; Up/Down walk the history; PgUp scrolls back 5 rows, capped at the log length minus 1; PgDn scrolls forward 5, not below 0 |
| CursesUi.CursesUI.EditKey | ui/curses_ui.py:258-288 | the new line and cursor are `EditEffect` of the old; Ctrl+U cuts before the cursor, Ctrl+K after it, Backspace deletes the character before the cursor, Delete the one under it, a printable key is inserted at the cursor and advances it; any other key, the mouse included, changes nothing |
| CursesUi.CursesUI.HistoryPrev | ui/curses_ui.py:290-298 | the editor's new state is `HistoryPrevEffect` of the old; Up with history enters browsing at the newest entry or steps back, stopping at the oldest, and loads the entry with the cursor at its end; with no history nothing changes |
| CursesUi.CursesUI.HistoryNext | ui/curses_ui.py:300-309 | the editor's new state is `HistoryNextEffect` of the old; Down while browsing steps forward and loads the entry, and past the newest clears the line and ends browsing; when not browsing nothing changes |
| CursesUi.EditorStepKeepsValid | ui/curses_ui.py:228-309 | every key press keeps the cursor in the line, the history index in the history, the history within 300 entries, the scroll offset within the log, and the line and history printable |
| CursesUi.OnlyEnterReturns | ui/curses_ui.py:228-288 | a key press returns a value if and only if it is Enter, and no other key changes the history |
| CursesUi.SubmitRecordsCommand | ui/curses_ui.py:228-235 | Enter returns the stripped line, which is already stripped, clears the line and ends browsing; a non-empty command becomes the newest history entry with the history growing by one up to 300; an empty one leaves the history alone |
| CursesUi.BackspaceUndoesInsert | ui/curses_ui.py:265-286 | Backspace right after inserting a printable character restores the line and the cursor |
| CursesUi.KillsSplitTheLine | ui/curses_ui.py:258-264 | what Ctrl+K keeps followed by what Ctrl+U keeps is the whole line |
| CursesUi.HistoryNextUndoesPrev | ui/curses_ui.py:290-309 | Down right after an Up that stepped back from a later entry returns to that entry, with the cursor at its end |
| CursesUi.PageDownUndoesPageUp | ui/curses_ui.py:251-256 | Page Down right after a Page Up that was not capped restores the scroll offset and everything else |

## Left out

- Sockets, byte I/O and JSON text: lines reach the model already decoded as `Line` values. End of stream and `reader.at_eof()` are both `Eof`, and running out of lines counts as end of stream.
- JSON field values are modelled as strings. A `type` or `to` that is a number, list or object is not modelled. An unhashable `to` would make the map lookup raise. An `id` is modelled by its `str()` rendering.
- Failing writes are left out. A write to a connection is an `Action` that always succeeds. A write that raises inside a dispatched step, such as to a peer that has gone away, would end the loop with `server_exception`. The chat-ended notice and the final close are wrapped in `try`/`except: pass`, so a failure there changes nothing the model tracks.
- Concurrency is modelled at step granularity only. Each handler step is atomic. Several steps await writes before their last table update: registration awaits the eviction notice before recording the new connection (server.py:33-38), `chat_accept` awaits both frames before dropping the pending entry (server.py:86-88), and cleanup awaits the chat-ended notice before dropping pending entries (server.py:125-130). Other handlers interleaving at those `await`s are not modelled. `Server.Relay.HandleClient` runs one connection with no other connection's steps in between.
- Server.RegistrationEvictsPreviousHolder: the previous holder is always closed. In server.py:31-36 `old.close()` follows the notice inside the same `try`, so a notice that fails to send skips the close; failing writes are not modelled.
- Server.Relay.HandleClient: it requires the new connection not to be registered already. Every accepted connection is a fresh writer, so this always holds.
- Logging with `print`, `main`, the listening socket and signal handling are not part of the core.
- Drawing is left out: `draw`, `_draw_input`, `_hline`, `_draw_modal`, colours, the cursor placement and the `addstr` calls. Only the row selection of `_draw_log` is modelled. Button bounds enter the model through `Widgets.Button.SetBounds`.
- `set_chat_peer` and `set_pending_from` are single field assignments. Within ui/curses_ui.py `chat_peer` is read only by drawing. They are not modelled.
- Keys arrive as integers, with the ncurses `KEY_*` values written out. `curses.getmouse` is a parameter: `None` when it raises, otherwise the position and whether button 1 was pressed, clicked or released.
- Widgets.Modal.Next: it requires at least one button, where the code raises `ZeroDivisionError` on an empty modal. Every modal the interface opens has two buttons. Widgets.Modal.Prev has the same precondition for the same reason.
- CursesUi.IsSpace covers ASCII whitespace only. The line editor inserts only characters 32 to 126 and the history holds only stripped lines, so `strip` never meets other whitespace. `splitlines` is modelled with Python's full set of line boundaries.
- functions/app.py, functions/net.py, functions/persistence.py, functions/constants.py and main.py are not part of this model.

=== FILE: curses_ui.dfy ===
/**
 * The client's terminal interface without the drawing: the line editor
 * (input buffer, cursor, command history), the log of lines and its scroll
 * position, the cutting of log lines into screen rows and the window of rows
 * that is shown, and the keys that drive an open modal dialog.
 */
module CursesUi {
  import opened Wrappers
  import opened Widgets

  const MaxLogLines: nat := 2000
  const MaxHistory: nat := 300
  const ScrollStep: int := 5
  const ModalPrefix: string := "__MODAL__:"

  // Key codes: control characters, and the values of the ncurses KEY_* constants.
  const CtrlH: int := 8
  const Tab: int := 9
  const LineFeed: int := 10
  const CtrlK: int := 11
  const CarriageReturn: int := 13
  const CtrlU: int := 21
  const Escape: int := 27
  const Delete: int := 127
  const KeyDown: int := 258
  const KeyUp: int := 259
  const KeyLeft: int := 260
  const KeyRight: int := 261
  const KeyBackspace: int := 263
  const KeyDc: int := 330
  const KeyNPage: int := 338
  const KeyPPage: int := 339
  const KeyBTab: int := 353
  const KeyMouse: int := 409

  /** The keys the line editor reacts to, besides printable characters. */
  const EditingKeys: set<int> :=
    {LineFeed, CarriageReturn, KeyLeft, KeyRight, KeyUp, KeyDown, CtrlU, CtrlK, KeyBackspace, Delete, CtrlH, KeyDc}

  /** The keys an open modal reacts to. */
  const ModalKeys: set<int> := {KeyLeft, KeyBTab, KeyRight, Tab, LineFeed, CarriageReturn, Escape, KeyMouse}

  /** What `curses.getmouse` reported: the position and whether button 1 was pressed, clicked or released. */
  datatype MouseEvent = MouseEvent(y: int, x: int, button1: bool)

  predicate IsEnter(ch: int)
  {
    ch == LineFeed || ch == CarriageReturn
  }

  predicate IsBackspace(ch: int)
  {
    ch == KeyBackspace || ch == Delete || ch == CtrlH
  }

  predicate IsPrintableKey(ch: int)
  {
    32 <= ch <= 126
  }

  /** Text made only of the characters the editor inserts (codes 32 to 126). */
  predicate Printable(s: string)
  {
    forall i :: 0 <= i < |s| ==> 32 <= s[i] as int <= 126
  }

  function Max(a: int, b: int): int
  {
    if a < b then b else a
  }

  function Min(a: int, b: int): int
  {
    if a < b then a else b
  }

  // ---------------------------------------------------------------------------
  // Bounded deques: appending to a full deque drops its oldest entry.
  // ---------------------------------------------------------------------------

  /** The newest `cap` entries of `s`. */
  function Newest<T>(s: seq<T>, cap: nat): (r: seq<T>)
    ensures |r| == Min(|s|, cap)
    ensures r == s[|s| - |r|..]
  {
    if |s| <= cap then s else s[|s| - cap..]
  }

  /** `deque(maxlen=cap).append(x)` on a deque holding `q`. */
  function DequeAppend<T>(q: seq<T>, x: T, cap: nat): seq<T>
    requires |q| <= cap
  {
    if |q| == cap then (if cap == 0 then [] else q[1..] + [x]) else q + [x]
  }

  /** One append keeps exactly the newest `cap` entries of everything appended. */
  lemma DequeAppendKeepsNewest<T>(q: seq<T>, x: T, cap: nat)
    requires |q| <= cap
    ensures DequeAppend(q, x, cap) == Newest(q + [x], cap)
  {
  }

  /** An append keeps only entries that were there, and the new one. */
  lemma DequeAppendFrom<T>(q: seq<T>, x: T, cap: nat)
    requires |q| <= cap
    ensures forall y :: y in DequeAppend(q, x, cap) ==> y in q || y == x
  {
  }

  /** Appending after a trim is the same as trimming after the append. */
  lemma NewestAppend<T>(s: seq<T>, x: T, cap: nat)
    ensures Newest(Newest(s, cap) + [x], cap) == Newest(s + [x], cap)
  {
    var t := Newest(s, cap);
    if |s| > cap && cap > 0 {
      assert (t + [x])[1..] == (s + [x])[|s| + 1 - cap..];
    }
  }

  /** Appending the next line to the log keeps the newest lines of everything appended so far. */
  lemma LogStep(base: seq<string>, lines: seq<string>, i: nat, log: seq<string>)
    requires i < |lines| && |base| <= MaxLogLines
    requires log == Newest(base + lines[..i], MaxLogLines)
    ensures |log| <= MaxLogLines
    ensures DequeAppend(log, lines[i], MaxLogLines) == Newest(base + lines[..i + 1], MaxLogLines)
  {
    DequeAppendKeepsNewest(log, lines[i], MaxLogLines);
    NewestAppend(base + lines[..i], lines[i], MaxLogLines);
    assert base + lines[..i + 1] == base + lines[..i] + [lines[i]];
  }

  // ---------------------------------------------------------------------------
  // Python's str.strip() and str.splitlines().
  // ---------------------------------------------------------------------------

  /**
   * Python's `str.isspace` on ASCII: tab, line feed, vertical tab, form
   * feed, carriage return, the separators 0x1c to 0x1f, and space.
   */
  predicate IsSpace(c: char)
  {
    var n := c as int;
    9 <= n <= 13 || 28 <= n <= 32
  }

  /** The first index at or after `i` that is not whitespace, or the end of the text. */
  function SkipSpaces(s: string, i: nat): (k: nat)
    requires i <= |s|
    ensures i <= k <= |s|
    ensures forall j :: i <= j < k ==> IsSpace(s[j])
    ensures k < |s| ==> !IsSpace(s[k])
    decreases |s| - i
  {
    if i == |s| || !IsSpace(s[i]) then i else SkipSpaces(s, i + 1)
  }

  /** Where `s[..e]` ends once its trailing whitespace is dropped. */
  function TrimEnd(s: string, e: nat): (k: nat)
    requires e <= |s|
    ensures k <= e
    ensures forall j :: k <= j < e ==> IsSpace(s[j])
    ensures k > 0 ==> !IsSpace(s[k - 1])
  {
    if e == 0 || !IsSpace(s[e - 1]) then e else TrimEnd(s, e - 1)
  }

  /** `s.strip()`: the text between the leading and the trailing whitespace. */
  function Strip(s: string): (r: string)
    ensures r == "" || (!IsSpace(r[0]) && !IsSpace(r[|r| - 1]))
  {
    var i := SkipSpaces(s, 0);
    var e := TrimEnd(s, |s|);
    if e <= i then "" else s[i..e]
  }

  /** Text made only of whitespace. */
  predicate AllSpace(t: string)
  {
    forall j :: 0 <= j < |t| ==> IsSpace(t[j])
  }

  /**
   * `strip` keeps one contiguous piece of the text and removes only
   * whitespace around it.
   */
  lemma StripKeepsMiddle(s: string)
    ensures var i := SkipSpaces(s, 0);
      && i + |Strip(s)| <= |s|
      && s == s[..i] + Strip(s) + s[i + |Strip(s)|..]
      && AllSpace(s[..i])
      && AllSpace(s[i + |Strip(s)|..])
  {
    var i := SkipSpaces(s, 0);
    var e := TrimEnd(s, |s|);
    if i < |s| {
      assert !IsSpace(s[i]);
      assert i < e;
    }
    var r := Strip(s);
    assert s == s[..i] + r + s[i + |r|..];
  }

  /** Stripped printable text is printable. */
  lemma StripKeepsPrintable(s: string)
    requires Printable(s)
    ensures Printable(Strip(s))
  {
    StripKeepsMiddle(s);
    var i := SkipSpaces(s, 0);
    forall k | 0 <= k < |Strip(s)|
      ensures 32 <= Strip(s)[k] as int <= 126
    {
      assert Strip(s)[k] == s[i + k];
    }
  }

  /** Stripping twice is stripping once. */
  lemma StripIdempotent(s: string)
    ensures Strip(Strip(s)) == Strip(s)
  {
    var r := Strip(s);
    if r != "" {
      assert SkipSpaces(r, 0) == 0;
      assert TrimEnd(r, |r|) == |r|;
      assert r[0..|r|] == r;
    }
  }

  /** The line boundaries of Python's `str.splitlines`. */
  predicate IsLineBreak(c: char)
  {
    var n := c as int;
    10 <= n <= 13 || 28 <= n <= 30 || n == 0x85 || n == 0x2028 || n == 0x2029
  }

  /** The first line break at or after `i`, or the end of the text. */
  function LineEnd(s: string, i: nat): (e: nat)
    requires i <= |s|
    ensures i <= e <= |s|
    ensures forall j :: i <= j < e ==> !IsLineBreak(s[j])
    ensures e < |s| ==> IsLineBreak(s[e])
    decreases |s| - i
  {
    if i == |s| || IsLineBreak(s[i]) then i else LineEnd(s, i + 1)
  }

  /** Where the next line starts after a break at `e`; "\r\n" is one break. */
  function NextLineStart(s: string, e: nat): (n: nat)
    requires e <= |s|
    ensures e == |s| ==> n == e
    ensures e < |s| ==> e < n <= |s| && n <= e + 2
    ensures e < |s| && IsLineBreak(s[e]) ==> forall j :: e <= j < n ==> IsLineBreak(s[j])
    ensures e < |s| ==> (n == e + 2 <==> s[e] == '\r' && e + 1 < |s| && s[e + 1] == '\n')
  {
    if e == |s| then e
    else if s[e] == '\r' && e + 1 < |s| && s[e + 1] == '\n' then e + 2
    else e + 1
  }

  /** `s.splitlines()`. */
  function SplitLines(s: string): seq<string>
    decreases |s|
  {
    if s == "" then []
    else
      var e := LineEnd(s, 0);
      [s[..e]] + SplitLines(s[NextLineStart(s, e)..])
  }

  /** `s.splitlines() or [""]`: the lines `log_line` appends. */
  function LogLines(s: string): seq<string>
  {
    if s == "" then [""] else SplitLines(s)
  }

  /** The text with every line break removed. */
  function DropBreaks(s: string): string
  {
    if s == "" then "" else (if IsLineBreak(s[0]) then "" else [s[0]]) + DropBreaks(s[1..])
  }

  /** The strings joined end to end. */
  function Concat(ss: seq<string>): string
  {
    if ss == [] then "" else ss[0] + Concat(ss[1..])
  }

  lemma {:induction false} DropBreaksAppend(a: string, b: string)
    ensures DropBreaks(a + b) == DropBreaks(a) + DropBreaks(b)
  {
    if a == "" {
      assert a + b == b;
    } else {
      assert (a + b)[0] == a[0];
      assert (a + b)[1..] == a[1..] + b;
      DropBreaksAppend(a[1..], b);
    }
  }

  lemma {:induction false} DropBreaksOfNoBreaks(a: string)
    requires forall j :: 0 <= j < |a| ==> !IsLineBreak(a[j])
    ensures DropBreaks(a) == a
  {
    if a != "" {
      DropBreaksOfNoBreaks(a[1..]);
    }
  }

  lemma {:induction false} DropBreaksOfBreaks(a: string)
    requires forall j :: 0 <= j < |a| ==> IsLineBreak(a[j])
    ensures DropBreaks(a) == ""
  {
    if a != "" {
      DropBreaksOfBreaks(a[1..]);
    }
  }

  /** No line `splitlines` returns holds a line break. */
  lemma {:induction false} SplitLinesHaveNoBreaks(s: string)
    ensures forall i, j :: 0 <= i < |SplitLines(s)| && 0 <= j < |SplitLines(s)[i]| ==> !IsLineBreak(SplitLines(s)[i][j])
    decreases |s|
  {
    if s != "" {
      var e := LineEnd(s, 0);
      var rest := s[NextLineStart(s, e)..];
      SplitLinesHaveNoBreaks(rest);
      assert SplitLines(s) == [s[..e]] + SplitLines(rest);
    }
  }

  /** Without its breaks, a text is its first line followed by the rest without breaks. */
  lemma DropBreaksOfFirstLine(s: string)
    requires s != ""
    ensures var e := LineEnd(s, 0);
      DropBreaks(s) == s[..e] + DropBreaks(s[NextLineStart(s, e)..])
  {
    var e := LineEnd(s, 0);
    var n := NextLineStart(s, e);
    var line, brk, rest := s[..e], s[e..n], s[n..];
    assert s == line + brk + rest;
    DropBreaksAppend(line + brk, rest);
    DropBreaksAppend(line, brk);
    DropBreaksOfNoBreaks(line);
    DropBreaksOfBreaks(brk);
  }

  /** `splitlines` loses nothing but the line breaks: joined, its lines are the text with the breaks taken out. */
  lemma {:induction false} SplitLinesKeepsText(s: string)
    ensures Concat(SplitLines(s)) == DropBreaks(s)
    decreases |s|
  {
    if s != "" {
      var e := LineEnd(s, 0);
      var rest := s[NextLineStart(s, e)..];
      SplitLinesKeepsText(rest);
      DropBreaksOfFirstLine(s);
      assert SplitLines(s) == [s[..e]] + SplitLines(rest);
    }
  }

  /** Only the empty text has no lines; `log_line` therefore always appends at least one line. */
  lemma SplitLinesEmpty(s: string)
    ensures SplitLines(s) == [] <==> s == ""
    ensures |LogLines(s)| >= 1
  {
  }

  // ---------------------------------------------------------------------------
  // Cutting log lines into screen rows.
  // ---------------------------------------------------------------------------

  /** The row width `_draw_log` cuts at: one less than the screen width, at least 1. */
  function WrapWidth(w: int): (r: nat)
    ensures r >= 1 && r >= w - 1
    ensures w >= 2 ==> r == w - 1
    ensures w < 2 ==> r == 1
  {
    Max(1, w - 1)
  }

  /** The rows one log line is cut into; an empty line is one empty row. */
  function Chunks(ln: string, width: nat): seq<string>
    requires width > 0
    decreases |ln|
  {
    if |ln| <= width then [ln] else [ln[..width]] + Chunks(ln[width..], width)
  }

  /**
   * The rows of a line join back into the line, none is wider than the row
   * width, and a non-empty line has no empty row.
   */
  lemma {:induction false} ChunksRejoin(ln: string, width: nat)
    requires width > 0
    ensures Concat(Chunks(ln, width)) == ln
    ensures forall i :: 0 <= i < |Chunks(ln, width)| ==> |Chunks(ln, width)[i]| <= width
    ensures ln != "" ==> forall i :: 0 <= i < |Chunks(ln, width)| ==> Chunks(ln, width)[i] != ""
    ensures Chunks("", width) == [""]
    decreases |ln|
  {
    if |ln| > width {
      ChunksRejoin(ln[width..], width);
      assert ln == ln[..width] + ln[width..];
    }
  }

  /** All rows of the log, line after line. */
  function Rows(lines: seq<string>, width: nat): seq<string>
    requires width > 0
  {
    if lines == [] then [] else Rows(lines[..|lines| - 1], width) + Chunks(lines[|lines| - 1], width)
  }

  /** No row of the log is wider than the row width. */
  lemma {:induction false} RowsFit(lines: seq<string>, width: nat)
    requires width > 0
    ensures forall i :: 0 <= i < |Rows(lines, width)| ==> |Rows(lines, width)[i]| <= width
  {
    if lines != [] {
      RowsFit(lines[..|lines| - 1], width);
      ChunksRejoin(lines[|lines| - 1], width);
    }
  }

  /** The wrapping loop of `_draw_log`. */
  method WrapLog(lines: seq<string>, w: int) returns (wrapped: seq<string>)
    ensures wrapped == Rows(lines, WrapWidth(w))
  {
    var wrapw := Max(1, w - 1);
    wrapped := [];
    for k := 0 to |lines|
      invariant wrapped == Rows(lines[..k], wrapw)
    {
      var ln := lines[k];
      assert lines[..k + 1][..k] == lines[..k];
      ghost var before := wrapped;
      if ln == "" {
        wrapped := wrapped + [""];
      } else {
        var start := 0;
        while start < |ln|
          invariant 0 <= start
          invariant start < |ln| ==> wrapped + Chunks(ln[start..], wrapw) == before + Chunks(ln, wrapw)
          invariant start >= |ln| ==> wrapped == before + Chunks(ln, wrapw)
          decreases |ln| - start
        {
          var piece := ln[start..Min(start + wrapw, |ln|)];
          ghost var tail := ln[start..];
          if start + wrapw < |ln| {
            assert tail[..wrapw] == piece && tail[wrapw..] == ln[start + wrapw..];
            assert Chunks(tail, wrapw) == [piece] + Chunks(ln[start + wrapw..], wrapw);
          } else {
            assert tail == piece;
            assert Chunks(tail, wrapw) == [piece];
          }
          wrapped := wrapped + [piece];
          start := start + wrapw;
        }
      }
    }
    assert lines[..|lines|] == lines;
  }

  // ---------------------------------------------------------------------------
  // The line editor's effects, as functions of its state.
  // ---------------------------------------------------------------------------

  /** The line editor's part of the interface state. */
  datatype EditorState = EditorState(
    buffer: string, cursor: int, history: seq<string>, historyIndex: Option<nat>, scrollOffset: int)

  /** The cursor lies within the line and the history index within the history. */
  predicate InRange(e: EditorState)
  {
    && 0 <= e.cursor <= |e.buffer|
    && (e.historyIndex.Some? ==> e.historyIndex.value < |e.history|)
  }

  /**
   * What the interface keeps true of the editor: in range, a bounded
   * history, a scroll offset within the log, and only printable text.
   */
  predicate EditorValid(e: EditorState, logLen: nat)
  {
    && InRange(e)
    && |e.history| <= MaxHistory
    && 0 <= e.scrollOffset <= Max(0, logLen - 1)
    && Printable(e.buffer)
    && (forall h :: h in e.history ==> Printable(h))
  }

  /** The keys that move the cursor, walk the history or scroll the log. */
  predicate IsNavigationKey(ch: int)
  {
    ch == KeyLeft || ch == KeyRight || ch == KeyUp || ch == KeyDown || ch == KeyPPage || ch == KeyNPage
  }

  /** Up arrow: enter the history at the newest entry, or step back, stopping at the oldest. */
  function HistoryPrevEffect(e: EditorState): EditorState
    requires InRange(e)
  {
    if e.history == [] then e
    else
      var i: nat := if e.historyIndex.None? then |e.history| - 1 else Max(0, e.historyIndex.value - 1);
      e.(historyIndex := Some(i), buffer := e.history[i], cursor := |e.history[i]|)
  }

  /** Down arrow: step forward through the history; past the newest entry, clear the line. */
  function HistoryNextEffect(e: EditorState): EditorState
    requires InRange(e)
  {
    if e.historyIndex.None? then e
    else if e.historyIndex.value < |e.history| - 1 then
      var i := e.historyIndex.value + 1;
      e.(historyIndex := Some(i), buffer := e.history[i], cursor := |e.history[i]|)
    else e.(historyIndex := None, buffer := "", cursor := 0)
  }

  /** The arrow and page keys; `logLen` is the number of log lines. */
  function NavigateEffect(e: EditorState, ch: int, logLen: nat): EditorState
    requires InRange(e) && IsNavigationKey(ch)
  {
    if ch == KeyLeft then e.(cursor := Max(0, e.cursor - 1))
    else if ch == KeyRight then e.(cursor := Min(|e.buffer|, e.cursor + 1))
    else if ch == KeyUp then HistoryPrevEffect(e)
    else if ch == KeyDown then HistoryNextEffect(e)
    else if ch == KeyPPage then e.(scrollOffset := Min(e.scrollOffset + ScrollStep, Max(0, logLen - 1)))
    else e.(scrollOffset := Max(0, e.scrollOffset - ScrollStep))
  }

  /** The editing keys on the line and the cursor; any other key leaves both alone. */
  function EditEffect(buffer: string, cursor: int, ch: int): (string, int)
    requires 0 <= cursor <= |buffer|
  {
    if ch == CtrlU then (buffer[cursor..], 0)
    else if ch == CtrlK then (buffer[..cursor], cursor)
    else if IsBackspace(ch) then
      if cursor > 0 then (buffer[..cursor - 1] + buffer[cursor..], cursor - 1) else (buffer, cursor)
    else if ch == KeyDc then
      if cursor < |buffer| then (buffer[..cursor] + buffer[cursor + 1..], cursor) else (buffer, cursor)
    else if IsPrintableKey(ch) then (buffer[..cursor] + [ch as char] + buffer[cursor..], cursor + 1)
    else (buffer, cursor)
  }

  /** Enter: the stripped line, recorded in the history when non-empty; the line is cleared. */
  function SubmitEffect(e: EditorState): (EditorState, string)
  {
    var cmd := Strip(e.buffer);
    var history := if cmd != "" then Newest(e.history + [cmd], MaxHistory) else e.history;
    (EditorState("", 0, history, None, e.scrollOffset), cmd)
  }

  /** One key press with no modal open, and what `handle_key` returns for it. */
  function EditorStep(e: EditorState, ch: int, logLen: nat): (EditorState, Option<string>)
    requires InRange(e)
  {
    if IsEnter(ch) then
      var (e', cmd) := SubmitEffect(e);
      (e', Some(cmd))
    else if IsNavigationKey(ch) then
      (NavigateEffect(e, ch, logLen), None)
    else
      var (b, c) := EditEffect(e.buffer, e.cursor, ch);
      (e.(buffer := b, cursor := c), None)
  }

  /** Every key press keeps the editor valid. */
  lemma EditorStepKeepsValid(e: EditorState, ch: int, logLen: nat)
    requires EditorValid(e, logLen)
    ensures EditorValid(EditorStep(e, ch, logLen).0, logLen)
  {
    if IsEnter(ch) {
      var cmd := Strip(e.buffer);
      StripKeepsPrintable(e.buffer);
      if cmd != "" {
        var h := Newest(e.history + [cmd], MaxHistory);
        forall x | x in h
          ensures Printable(x)
        {
          assert x in e.history + [cmd];
        }
      }
    } else if !IsNavigationKey(ch) {
      var (b, c) := EditEffect(e.buffer, e.cursor, ch);
      forall k | 0 <= k < |b|
        ensures 32 <= b[k] as int <= 126
      {
        if ch == CtrlU {
          assert b[k] == e.buffer[e.cursor + k];
        } else if IsBackspace(ch) && e.cursor > 0 {
          assert b[k] == if k < e.cursor - 1 then e.buffer[k] else e.buffer[k + 1];
        } else if ch == KeyDc && e.cursor < |e.buffer| {
          assert b[k] == if k < e.cursor then e.buffer[k] else e.buffer[k + 1];
        } else if IsPrintableKey(ch) && ch != CtrlU && ch != CtrlK {
          assert b[k] == if k < e.cursor then e.buffer[k] else if k == e.cursor then ch as char else e.buffer[k - 1];
        }
      }
    } else if ch == KeyUp && e.history != [] {
      var i: nat := if e.historyIndex.None? then |e.history| - 1 else Max(0, e.historyIndex.value - 1);
      assert e.history[i] in e.history;
    } else if ch == KeyDown && e.historyIndex.Some? && e.historyIndex.value < |e.history| - 1 {
      assert e.history[e.historyIndex.value + 1] in e.history;
    }
  }

  /** Only Enter returns something, and only Enter changes the history. */
  lemma OnlyEnterReturns(e: EditorState, ch: int, logLen: nat)
    requires InRange(e)
    ensures EditorStep(e, ch, logLen).1.Some? <==> IsEnter(ch)
    ensures !IsEnter(ch) ==> EditorStep(e, ch, logLen).0.history == e.history
  {
  }

  /**
   * Enter returns the stripped line, which stripping again leaves as it is;
   * a non-empty command becomes the newest history entry, the history keeps
   * at most MaxHistory entries, and an empty command leaves it alone.
   */
  lemma SubmitRecordsCommand(e: EditorState)
    requires |e.history| <= MaxHistory
    ensures var (e', cmd) := SubmitEffect(e);
      && cmd == Strip(e.buffer) && Strip(cmd) == cmd
      && e'.buffer == "" && e'.cursor == 0 && e'.historyIndex.None?
      && (cmd != "" ==> |e'.history| == Min(|e.history| + 1, MaxHistory) && e'.history[|e'.history| - 1] == cmd)
      && (cmd == "" ==> e'.history == e.history)
  {
    StripIdempotent(e.buffer);
  }

  /** Backspace takes back the character a printable key just inserted. */
  lemma BackspaceUndoesInsert(buffer: string, cursor: int, ch: int)
    requires 0 <= cursor <= |buffer| && IsPrintableKey(ch)
    ensures var (b, c) := EditEffect(buffer, cursor, ch);
      0 <= c <= |b| && EditEffect(b, c, KeyBackspace) == (buffer, cursor)
  {
    var (b, c) := EditEffect(buffer, cursor, ch);
    assert b[..c - 1] == buffer[..cursor];
    assert b[c..] == buffer[cursor..];
    assert buffer[..cursor] + buffer[cursor..] == buffer;
  }

  /** Ctrl+K keeps what Ctrl+U cuts away and the other way round: together they are the line. */
  lemma KillsSplitTheLine(buffer: string, cursor: int)
    requires 0 <= cursor <= |buffer|
    ensures EditEffect(buffer, cursor, CtrlK).0 + EditEffect(buffer, cursor, CtrlU).0 == buffer
  {
    assert buffer[..cursor] + buffer[cursor..] == buffer;
  }

  /** Down takes back an Up that stepped back from an entry other than the oldest. */
  lemma HistoryNextUndoesPrev(e: EditorState)
    requires InRange(e) && e.historyIndex.Some? && e.historyIndex.value > 0
    ensures var e' := HistoryNextEffect(HistoryPrevEffect(e));
      e'.historyIndex == e.historyIndex && e'.buffer == e.history[e.historyIndex.value] && e'.cursor == |e'.buffer|
  {
  }

  /** Page Down takes back a Page Up that was not stopped at the top of the log. */
  lemma PageDownUndoesPageUp(e: EditorState, logLen: nat)
    requires InRange(e) && 0 <= e.scrollOffset && e.scrollOffset + ScrollStep <= Max(0, logLen - 1)
    ensures NavigateEffect(NavigateEffect(e, KeyPPage, logLen), KeyNPage, logLen) == e
  {
  }

  // ---------------------------------------------------------------------------
  // The interface state.
  // ---------------------------------------------------------------------------

  class CursesUI {
    const myId: string
    var log: seq<string>
    var history: seq<string>
    var historyIndex: Option<nat>
    var buffer: string
    var cursor: int
    var scrollOffset: int
    var pendingFrom: Option<string>
    var modal: Modal?

    /**
     * The deques stay within their bounds, the cursor within the buffer, the
     * history index within the history, the scroll offset within the log;
     * the buffer and the history hold only printable characters; an open
     * modal has buttons and selects one of them.
     */
    ghost predicate Valid()
      reads this, modal
    {
      && |log| <= MaxLogLines
      && |history| <= MaxHistory
      && 0 <= cursor <= |buffer|
      && (historyIndex.Some? ==> historyIndex.value < |history|)
      && 0 <= scrollOffset <= Max(0, |log| - 1)
      && Printable(buffer)
      && (forall h :: h in history ==> Printable(h))
      && (modal != null ==> |modal.buttons| > 0 && modal.Valid())
    }

    /** The line editor's fields as one value. */
    function Editor(): EditorState
      reads this
    {
      EditorState(buffer, cursor, history, historyIndex, scrollOffset)
    }

    constructor (myId: string)
      ensures Valid()
      ensures this.myId == myId && log == [] && history == [] && historyIndex == None
      ensures buffer == "" && cursor == 0 && scrollOffset == 0
      ensures pendingFrom == None && modal == null
    {
      this.myId := myId;
      log, history, historyIndex := [], [], None;
      buffer, cursor, scrollOffset := "", 0, 0;
      pendingFrom, modal := None, null;
    }

    /** Appends each line of `s` to the log (one empty line for empty `s`). */
    method LogLine(s: string)
      requires Valid()
      modifies this`log
      ensures Valid()
      ensures log == Newest(old(log) + LogLines(s), MaxLogLines)
    {
      var lines := LogLines(s);
      ghost var base := log;
      for i := 0 to |lines|
        invariant log == Newest(base + lines[..i], MaxLogLines)
        invariant |base| <= |log| <= MaxLogLines
      {
        LogStep(base, lines, i, log);
        log := DequeAppend(log, lines[i], MaxLogLines);
      }
      assert lines[..|lines|] == lines;
    }

    /** Opens the accept/reject dialog for a chat request from `fromId`. */
    method ShowChatRequest(fromId: string)
      requires Valid()
      modifies this`pendingFrom, this`modal
      ensures Valid()
      ensures pendingFrom == Some(fromId)
      ensures modal != null && fresh(modal)
      ensures modal.title == "chat request" && modal.message == fromId + " wants to chat."
      ensures |modal.buttons| == 2 && modal.buttons[0].text == "accept" && modal.buttons[1].text == "reject"
      ensures modal.selected == 0
    {
      pendingFrom := Some(fromId);
      var accept := new Button("accept");
      var reject := new Button("reject");
      modal := new Modal("chat request", fromId + " wants to chat.", [accept, reject]);
    }

    /** The rows `_draw_log` shows in a window `height` rows tall on a screen `w` columns wide. */
    method VisibleRows(w: int, height: int) returns (visible: seq<string>)
      requires Valid()
      requires height >= 0
      ensures |visible| <= height
      ensures var rows := Rows(log, WrapWidth(w));
        var hi := Max(0, |rows| - scrollOffset);
        visible == rows[Max(0, hi - height)..hi]
      ensures scrollOffset == 0 ==>
        var rows := Rows(log, WrapWidth(w));
        |visible| == Min(height, |rows|) && visible == rows[|rows| - |visible|..]
    {
      var wrapped := WrapLog(log, w);
      var total := |wrapped|;
      var startIndex := Max(0, total - height - scrollOffset);
      var endIndex := Max(0, total - scrollOffset);
      var window := wrapped[startIndex..endIndex];
      // Python's `window[-height:]`; `-0` is 0, so a zero height keeps everything.
      visible := if height == 0 then window else window[Max(0, |window| - height)..];
    }

    /** Up arrow: step back through the history, stopping at the oldest entry. */
    method HistoryPrev()
      requires Valid()
      modifies this`historyIndex, this`buffer, this`cursor
      ensures Valid()
      ensures Editor() == HistoryPrevEffect(old(Editor()))
      ensures history == [] ==> historyIndex == old(historyIndex) && buffer == old(buffer) && cursor == old(cursor)
      ensures history != [] ==>
        && historyIndex == Some(if old(historyIndex).None? then |history| - 1 else Max(0, old(historyIndex).value - 1))
        && buffer == history[historyIndex.value]
        && cursor == |buffer|
    {
      if history == [] {
        return;
      }
      if historyIndex.None? {
        historyIndex := Some(|history| - 1);
      } else if historyIndex.value > 0 {
        historyIndex := Some(historyIndex.value - 1);
      }
      buffer := history[historyIndex.value];
      cursor := |buffer|;
    }

    /** Down arrow: step forward through the history; past the newest entry, clear the line. */
    method HistoryNext()
      requires Valid()
      modifies this`historyIndex, this`buffer, this`cursor
      ensures Valid()
      ensures Editor() == HistoryNextEffect(old(Editor()))
      ensures old(historyIndex).None? ==> historyIndex == None && buffer == old(buffer) && cursor == old(cursor)
      ensures old(historyIndex).Some? && old(historyIndex).value < |history| - 1 ==>
        historyIndex == Some(old(historyIndex).value + 1) && buffer == history[historyIndex.value]
      ensures old(historyIndex).Some? && old(historyIndex).value >= |history| - 1 ==>
        historyIndex == None && buffer == ""
      ensures old(historyIndex).Some? ==> cursor == |buffer|
    {
      if historyIndex.None? {
        return;
      }
      if historyIndex.value < |history| - 1 {
        historyIndex := Some(historyIndex.value + 1);
        buffer := history[historyIndex.value];
      } else {
        historyIndex := None;
        buffer := "";
      }
      cursor := |buffer|;
    }

    /**
     * One key press. With a modal open the key drives the modal and the
     * editor is left alone; otherwise the key edits the line, walks the
     * history or scrolls the log, and the modal stays closed.
     */
    method HandleKey(ch: int, mouse: Option<MouseEvent>) returns (r: Option<string>)
      requires Valid()
      modifies this, modal
      ensures Valid()
      ensures log == old(log) && pendingFrom == old(pendingFrom)
      ensures old(modal) != null ==>
        && buffer == old(buffer) && cursor == old(cursor) && history == old(history)
        && historyIndex == old(historyIndex) && scrollOffset == old(scrollOffset)
      ensures old(modal) != null && r.Some? ==> modal == null && ModalPrefix <= r.value
      ensures old(modal) != null && (ch == KeyLeft || ch == KeyBTab) ==>
        r.None? && modal == old(modal) && modal.selected == PrevIndex(old(modal.selected), |modal.buttons|)
      ensures old(modal) != null && (ch == KeyRight || ch == Tab) ==>
        r.None? && modal == old(modal) && modal.selected == NextIndex(old(modal.selected), |modal.buttons|)
      ensures old(modal) != null && IsEnter(ch) ==>
        modal == null && r == Some(ModalPrefix + old(modal).buttons[old(modal.selected)].text)
      ensures old(modal) != null && ch == Escape ==> modal == null && r.None?
      ensures old(modal) != null && ch == KeyMouse && (mouse.None? || !mouse.value.button1) ==>
        r.None? && modal == old(modal) && modal.selected == old(modal.selected)
      ensures old(modal) != null && ch == KeyMouse && mouse.Some? && mouse.value.button1 ==>
        forall hit: Option<nat> :: old(modal).IsFirstHit(mouse.value.y, mouse.value.x, hit) ==>
          if hit.None? then r.None? && modal == old(modal) && modal.selected == old(modal.selected)
          else r == Some(ModalPrefix + old(modal).buttons[hit.value].text) && modal == null && old(modal).selected == hit.value
      ensures old(modal) != null && ch !in ModalKeys ==>
        r.None? && modal == old(modal) && modal.selected == old(modal.selected)
      ensures old(modal) == null ==> modal == null
      ensures old(modal) == null ==> (Editor(), r) == EditorStep(old(Editor()), ch, |log|)
      ensures r.Some? ==> IsEnter(ch) || (ch == KeyMouse && old(modal) != null)
    {
      if modal != null {
        r := ModalKey(ch, mouse);
      } else {
        r := EditorKey(ch);
      }
    }

    /** The keys of an open modal: move the selection, choose a button, or dismiss the modal. */
    method ModalKey(ch: int, mouse: Option<MouseEvent>) returns (r: Option<string>)
      requires Valid() && modal != null
      modifies this`modal, modal
      ensures Valid()
      ensures r.Some? ==> IsEnter(ch) || ch == KeyMouse
      ensures r.Some? ==> modal == null && ModalPrefix <= r.value
      ensures ch == KeyLeft || ch == KeyBTab ==>
        r.None? && modal == old(modal) && modal.selected == PrevIndex(old(modal.selected), |modal.buttons|)
      ensures ch == KeyRight || ch == Tab ==>
        r.None? && modal == old(modal) && modal.selected == NextIndex(old(modal.selected), |modal.buttons|)
      ensures IsEnter(ch) ==>
        modal == null && r == Some(ModalPrefix + old(modal).buttons[old(modal.selected)].text)
      ensures ch == Escape ==> modal == null && r.None?
      ensures ch == KeyMouse && (mouse.None? || !mouse.value.button1) ==>
        r.None? && modal == old(modal) && modal.selected == old(modal.selected)
      ensures ch == KeyMouse && mouse.Some? && mouse.value.button1 ==>
        forall hit: Option<nat> :: old(modal).IsFirstHit(mouse.value.y, mouse.value.x, hit) ==>
          if hit.None? then r.None? && modal == old(modal) && modal.selected == old(modal.selected)
          else r == Some(ModalPrefix + old(modal).buttons[hit.value].text) && modal == null && old(modal).selected == hit.value
      ensures ch !in ModalKeys ==>
        r.None? && modal == old(modal) && modal.selected == old(modal.selected)
    {
      if ch == KeyLeft || ch == KeyBTab {
        modal.Prev();
        return None;
      }
      if ch == KeyRight || ch == Tab {
        modal.Next();
        return None;
      }
      if IsEnter(ch) {
        var choice := modal.buttons[modal.selected].text;
        modal := null;
        return Some(ModalPrefix + choice);
      }
      if ch == Escape {
        modal := null;
        return None;
      }
      if ch == KeyMouse && mouse.Some? && mouse.value.button1 {
        var hit := modal.FindButton(mouse.value.y, mouse.value.x);
        if hit.Some? {
          modal.selected := hit.value;
          var choice := modal.buttons[hit.value].text;
          modal := null;
          return Some(ModalPrefix + choice);
        }
      }
      return None;
    }

    /**
     * The line editor: Enter submits the line, the navigation keys move,
     * and every other key edits the line around the cursor. Only Enter
     * returns something: the stripped line.
     */
    method EditorKey(ch: int) returns (r: Option<string>)
      requires Valid() && modal == null
      modifies this`history, this`historyIndex, this`buffer, this`cursor, this`scrollOffset
      ensures Valid()
      ensures (Editor(), r) == EditorStep(old(Editor()), ch, |log|)
      ensures IsEnter(ch) ==> r == Some(Strip(old(buffer)))
      ensures !IsEnter(ch) ==> r.None? && history == old(history)
      ensures !IsEnter(ch) && !IsNavigationKey(ch) ==> historyIndex == old(historyIndex) && scrollOffset == old(scrollOffset)
      ensures IsNavigationKey(ch) && ch != KeyUp && ch != KeyDown ==> buffer == old(buffer)
    {
      if IsEnter(ch) {
        var cmd := SubmitLine();
        r := Some(cmd);
      } else if IsNavigationKey(ch) {
        NavigateKey(ch);
        r := None;
      } else {
        EditKey(ch);
        r := None;
      }
    }

    /**
     * Enter: the stripped line is the command; a non-empty one joins the
     * history (dropping the oldest entry when full); the line is cleared and
     * history browsing ends.
     */
    method SubmitLine() returns (cmd: string)
      requires Valid()
      modifies this`history, this`historyIndex, this`buffer, this`cursor
      ensures Valid()
      ensures (Editor(), cmd) == SubmitEffect(old(Editor()))
      ensures cmd == Strip(old(buffer))
      ensures history == (if cmd != "" then Newest(old(history) + [cmd], MaxHistory) else old(history))
      ensures historyIndex == None && buffer == "" && cursor == 0
    {
      cmd := Strip(buffer);
      StripKeepsPrintable(buffer);
      if cmd != "" {
        DequeAppendKeepsNewest(history, cmd, MaxHistory);
        DequeAppendFrom(history, cmd, MaxHistory);
        history := DequeAppend(history, cmd, MaxHistory);
      }
      historyIndex := None;
      buffer := "";
      cursor := 0;
    }

    /** The arrow and page keys. */
    method NavigateKey(ch: int)
      requires Valid() && IsNavigationKey(ch)
      modifies this`historyIndex, this`buffer, this`cursor, this`scrollOffset
      ensures Valid()
      ensures Editor() == NavigateEffect(old(Editor()), ch, |log|)
      ensures ch != KeyUp && ch != KeyDown ==> buffer == old(buffer) && historyIndex == old(historyIndex)
      ensures ch != KeyPPage && ch != KeyNPage ==> scrollOffset == old(scrollOffset)
      ensures ch == KeyLeft ==> cursor == Max(0, old(cursor) - 1)
      ensures ch == KeyRight ==> cursor == Min(|buffer|, old(cursor) + 1)
      ensures ch == KeyUp && history == [] ==> historyIndex == old(historyIndex) && buffer == old(buffer) && cursor == old(cursor)
      ensures ch == KeyUp && history != [] ==>
        && historyIndex == Some(if old(historyIndex).None? then |history| - 1 else Max(0, old(historyIndex).value - 1))
        && buffer == history[historyIndex.value] && cursor == |buffer|
      ensures ch == KeyDown && old(historyIndex).None? ==> historyIndex == None && buffer == old(buffer) && cursor == old(cursor)
      ensures ch == KeyDown && old(historyIndex).Some? ==>
        && historyIndex == (if old(historyIndex).value < |history| - 1 then Some(old(historyIndex).value + 1) else None)
        && buffer == (if historyIndex.Some? then history[historyIndex.value] else "")
        && cursor == |buffer|
      ensures ch == KeyPPage ==> scrollOffset == Min(old(scrollOffset) + ScrollStep, Max(0, |log| - 1))
      ensures ch == KeyNPage ==> scrollOffset == Max(0, old(scrollOffset) - ScrollStep)
      ensures ch == KeyPPage || ch == KeyNPage ==> cursor == old(cursor)
    {
      if ch == KeyLeft {
        if cursor > 0 {
          cursor := cursor - 1;
        }
      } else if ch == KeyRight {
        if cursor < |buffer| {
          cursor := cursor + 1;
        }
      } else if ch == KeyUp {
        HistoryPrev();
      } else if ch == KeyDown {
        HistoryNext();
      } else if ch == KeyPPage {
        scrollOffset := Min(scrollOffset + ScrollStep, Max(0, |log| - 1));
      } else {
        scrollOffset := Max(0, scrollOffset - ScrollStep);
      }
    }

    /**
     * The editing keys: cut before or after the cursor, delete the character
     * before or under it, or insert a printable character at it; any other
     * key changes nothing.
     */
    method EditKey(ch: int)
      requires Valid()
      modifies this`buffer, this`cursor
      ensures Valid()
      ensures (buffer, cursor) == EditEffect(old(buffer), old(cursor), ch)
      ensures ch == CtrlU ==> buffer == old(buffer)[old(cursor)..] && cursor == 0
      ensures ch == CtrlK ==> buffer == old(buffer)[..old(cursor)] && cursor == old(cursor)
      ensures IsBackspace(ch) ==>
        if old(cursor) > 0 then buffer == old(buffer)[..old(cursor) - 1] + old(buffer)[old(cursor)..] && cursor == old(cursor) - 1
        else buffer == old(buffer) && cursor == old(cursor)
      ensures ch == KeyDc ==>
        && cursor == old(cursor)
        && buffer == (if old(cursor) < |old(buffer)| then old(buffer)[..old(cursor)] + old(buffer)[old(cursor) + 1..] else old(buffer))
      ensures IsPrintableKey(ch) ==>
        buffer == old(buffer)[..old(cursor)] + [ch as char] + old(buffer)[old(cursor)..] && cursor == old(cursor) + 1
      ensures ch !in EditingKeys && !IsPrintableKey(ch) ==> buffer == old(buffer) && cursor == old(cursor)
    {
      if ch == CtrlU {
        buffer := buffer[cursor..];
        cursor := 0;
      } else if ch == CtrlK {
        buffer := buffer[..cursor];
      } else if IsBackspace(ch) {
        if cursor > 0 {
          buffer := buffer[..cursor - 1] + buffer[cursor..];
          cursor := cursor - 1;
        }
      } else if ch == KeyDc {
        if cursor < |buffer| {
          buffer := buffer[..cursor] + buffer[cursor + 1..];
        }
      } else if IsPrintableKey(ch) {
        buffer := buffer[..cursor] + [ch as char] + buffer[cursor..];
        cursor := cursor + 1;
      }
    }
  }
}

=== FILE: server.dfy ===
/**
 * The relay server: a registry of live connections, pending chat requests
 * and established chat sessions, and the per-connection handler that
 * registers a client, dispatches its frames and cleans up after it.
 *
 * The three process-wide tables are fields of class Relay. Each handler step
 * (the registration, the handling of one line, or the cleanup) is one method
 * of Relay and is treated as atomic, although the code awaits its writes
 * inside some of them; it takes an already-decoded line and returns the
 * frames the relay writes, in order, as a sequence of actions. Each method
 * is proved equal to a step function on RelayState values, and the
 * properties of the relay are lemmas about those step functions.
 */
module Server {
  import opened Wrappers

  /** A client identifier: the string a client registers under. */
  type Id = string

  /** The identity of one accepted connection (its stream writer). */
  type Conn = nat

  /** Identifiers are cut to this many characters on registration. */
  const MaxIdLength: nat := 128

  const SignedInElsewhere: string := "signed_in_elsewhere"
  const ChatRejectedNotice: string := "chat request rejected"
  const ChatEndedPrefix: string := "chat ended with "

  datatype ErrorCode =
    | InvalidJson
    | MustRegisterFirst
    | MissingTo
    | InvalidChatTarget
    | AlreadyInChat
    | NoPendingChat
    | NotInChat
    | UnknownType
    | ServerException

  /** A frame the relay sends to a client. */
  datatype Frame =
    | Registered(id: Id)
    | Deliver(from: Id, payload: string)
    | Sent(to: Id)
    | NoDeliver(to: Id)
    | ChatRequest(from: Id)
    | ChatAccept(from: Id)
    | ChatReject(from: Id)
    | ChatMessage(from: Id, payload: string)
    | Pong
    | Info(message: string)
    | Error(error: ErrorCode)

  /** What the relay does to a connection: write one frame to it, or close it. */
  datatype Action = Write(conn: Conn, frame: Frame) | Close(conn: Conn)

  /**
   * The fields of a decoded JSON object that the relay reads. `None` is an
   * absent key; `id` holds the `str()` rendering of the value.
   */
  datatype Msg = Msg(kind: Option<string>, id: Option<string>, to: Option<string>, payload: Option<string>)

  /**
   * One line read from a connection: end of stream, text that is not JSON
   * (a JSON syntax error), a line whose handling raises anything else (bytes
   * that are not UTF-8, or JSON that is not an object, whose `get` raises),
   * or an object.
   */
  datatype Line = Eof | Malformed | NotObject | Object(msg: Msg)

  /**
   * The three tables: id -> connection, user -> chat peer, and
   * target -> requester of a pending chat request.
   */
  datatype RelayState = RelayState(clients: map<Id, Conn>, sessions: map<Id, Id>, pending: map<Id, Id>)

  /** Python truthiness of an optional string field: present and non-empty. */
  predicate Given(v: Option<string>)
  {
    v.Some? && v.value != ""
  }

  /** Python truthiness of `m.get(k)` for a map whose values are strings. */
  predicate Holds(m: map<Id, Id>, k: Id)
  {
    k in m && m[k] != ""
  }

  /** `a` and `b` name each other in the session table. */
  predicate Paired(m: map<Id, Id>, a: Id, b: Id)
  {
    a in m && m[a] == b && b in m && m[b] == a
  }

  /** Every session entry is matched by its reverse entry. */
  ghost predicate Symmetric(m: map<Id, Id>)
  {
    forall k :: k in m ==> m[k] in m && m[m[k]] == k
  }

  /**
   * What every reachable state satisfies: no pending request is keyed by the
   * empty id or addressed to its own requester, and no session entry mentions
   * the empty id or pairs an id with itself.
   */
  ghost predicate WellFormed(s: RelayState)
  {
    && "" !in s.pending
    && (forall k :: k in s.pending ==> s.pending[k] != k)
    && "" !in s.sessions
    && (forall k :: k in s.sessions ==> s.sessions[k] != "" && s.sessions[k] != k)
  }

  /** The identifier actually registered: the first MaxIdLength characters. */
  function Truncate(s: string): (r: Id)
    ensures |r| <= MaxIdLength && |r| <= |s|
    ensures r == s[..|r|]
    ensures |s| <= MaxIdLength ==> r == s
    ensures |s| > MaxIdLength ==> |r| == MaxIdLength
  {
    if |s| <= MaxIdLength then s else s[..MaxIdLength]
  }

  /** The pending table without every request whose target or requester is `id`. */
  function DropMentions(p: map<Id, Id>, id: Id): map<Id, Id>
  {
    map k | k in p && k != id && p[k] != id :: p[k]
  }

  // ---------------------------------------------------------------------------
  // Step functions: the specification of each handler step.
  // ---------------------------------------------------------------------------

  /**
   * The first line of a new connection. Yields the new tables, the actions,
   * and the id the connection is now registered under (None if refused).
   */
  function RegisterStep(s: RelayState, conn: Conn, line: Line): (RelayState, seq<Action>, Option<Id>)
  {
    match line
    case Eof => (s, [Close(conn)], None)
    case Malformed => (s, [Write(conn, Error(InvalidJson)), Close(conn)], None)
    case NotObject => (s, [Write(conn, Error(ServerException))], None)
    case Object(msg) =>
      if msg.kind != Some("register") || msg.id.None? then
        (s, [Write(conn, Error(MustRegisterFirst)), Close(conn)], None)
      else
        var id := Truncate(msg.id.value);
        var evict := if id in s.clients
          then [Write(s.clients[id], Info(SignedInElsewhere)), Close(s.clients[id])]
          else [];
        (s.(clients := s.clients[id := conn]), evict + [Write(conn, Registered(id))], Some(id))
  }

  /** A `send` frame from `id`; it never changes the tables. */
  function SendStep(s: RelayState, id: Id, conn: Conn, to: Option<string>, payload: string): seq<Action>
  {
    if !Given(to) then [Write(conn, Error(MissingTo))]
    else if to.value !in s.clients then [Write(conn, NoDeliver(to.value))]
    else [Write(s.clients[to.value], Deliver(id, payload)), Write(conn, Sent(to.value))]
  }

  /** A `chat_request` frame from `id`. */
  function ChatRequestStep(s: RelayState, id: Id, conn: Conn, to: Option<string>): (RelayState, seq<Action>)
  {
    if !Given(to) || to.value == id then (s, [Write(conn, Error(InvalidChatTarget))])
    else if to.value !in s.clients then (s, [Write(conn, NoDeliver(to.value))])
    else if Holds(s.sessions, id) || Holds(s.sessions, to.value) then (s, [Write(conn, Error(AlreadyInChat))])
    else (s.(pending := s.pending[to.value := id]), [Write(s.clients[to.value], ChatRequest(id))])
  }

  /** A `chat_accept` frame from `id`; the frame's `to` is not read. */
  function ChatAcceptStep(s: RelayState, id: Id, conn: Conn): (RelayState, seq<Action>)
  {
    if !Holds(s.pending, id) then (s, [Write(conn, Error(NoPendingChat))])
    else
      var from := s.pending[id];
      if from in s.clients then
        (RelayState(s.clients, s.sessions[id := from][from := id], s.pending - {id}),
         [Write(s.clients[from], ChatAccept(id)), Write(conn, ChatAccept(from))])
      else
        (s.(pending := s.pending - {id}), [])
  }

  /** A `chat_reject` frame from `id`; the frame's `to` is not read. */
  function ChatRejectStep(s: RelayState, id: Id, conn: Conn): (RelayState, seq<Action>)
  {
    var notify := if Holds(s.pending, id) && s.pending[id] in s.clients
      then [Write(s.clients[s.pending[id]], ChatReject(id))]
      else [];
    (s.(pending := s.pending - {id}), notify + [Write(conn, Info(ChatRejectedNotice))])
  }

  /** A `chat_message` frame from `id`; it never changes the tables. */
  function ChatMessageStep(s: RelayState, id: Id, conn: Conn, to: Option<string>, payload: string): seq<Action>
  {
    if to.Some? && Paired(s.sessions, id, to.value) then
      if to.value in s.clients then [Write(s.clients[to.value], ChatMessage(id, payload))] else []
    else [Write(conn, Error(NotInChat))]
  }

  /**
   * One line read from the registered connection `conn` of `id`. The boolean
   * is true when the handler leaves its read loop (end of stream, or a failure
   * reported as `server_exception`).
   */
  function DispatchStep(s: RelayState, id: Id, conn: Conn, line: Line): (RelayState, seq<Action>, bool)
  {
    match line
    case Eof => (s, [], true)
    case Malformed => (s, [Write(conn, Error(InvalidJson))], false)
    case NotObject => (s, [Write(conn, Error(ServerException))], true)
    case Object(msg) =>
      var payload := msg.payload.GetOr("");
      if msg.kind == Some("send") then
        (s, SendStep(s, id, conn, msg.to, payload), false)
      else if msg.kind == Some("chat_request") then
        var (s', out) := ChatRequestStep(s, id, conn, msg.to); (s', out, false)
      else if msg.kind == Some("chat_accept") then
        var (s', out) := ChatAcceptStep(s, id, conn); (s', out, false)
      else if msg.kind == Some("chat_reject") then
        var (s', out) := ChatRejectStep(s, id, conn); (s', out, false)
      else if msg.kind == Some("chat_message") then
        (s, ChatMessageStep(s, id, conn, msg.to, payload), false)
      else if msg.kind == Some("ping") then
        (s, [Write(conn, Pong)], false)
      else
        (s, [Write(conn, Error(UnknownType))], false)
  }

  /** The id is non-empty and still registered to exactly this connection. */
  predicate Owns(s: RelayState, id: Option<Id>, conn: Conn)
  {
    id.Some? && id.value != "" && id.value in s.clients && s.clients[id.value] == conn
  }

  /**
   * The cleanup that ends every handler, `id` being what the handler
   * registered (None if it never did). Only the current owner of a non-empty
   * id removes anything; the connection is closed in every case.
   */
  function CleanupStep(s: RelayState, id: Option<Id>, conn: Conn): (RelayState, seq<Action>)
  {
    if Owns(s, id, conn) then
      var me := id.value;
      var clients := s.clients - {me};
      if Holds(s.sessions, me) then
        var peer := s.sessions[me];
        var notify := if peer in clients then [Write(clients[peer], Info(ChatEndedPrefix + me))] else [];
        (RelayState(clients, s.sessions - {me} - {peer}, DropMentions(s.pending, me)), notify + [Close(conn)])
      else
        (RelayState(clients, s.sessions - {me}, DropMentions(s.pending, me)), [Close(conn)])
    else
      (s, [Close(conn)])
  }

  /**
   * The read loop after registration: each line is dispatched until one ends
   * the loop; running out of lines is end of stream.
   */
  function ReadLoop(s: RelayState, id: Id, conn: Conn, lines: seq<Line>): (RelayState, seq<Action>)
    decreases |lines|
  {
    var line := if lines == [] then Eof else lines[0];
    var (s', out, stop) := DispatchStep(s, id, conn, line);
    if stop || lines == [] then (s', out)
    else
      var (s'', rest) := ReadLoop(s', id, conn, lines[1..]);
      (s'', out + rest)
  }

  /**
   * One whole connection reading `lines`: the registration, the read loop if
   * the connection registered, then the cleanup. Yields the final tables,
   * every action in order, and the id the connection registered under.
   */
  function ConnectionRun(s: RelayState, conn: Conn, lines: seq<Line>): (RelayState, seq<Action>, Option<Id>)
  {
    var (s1, registered, id) := RegisterStep(s, conn, if lines == [] then Eof else lines[0]);
    var (s2, exchanged) := if id.Some? then ReadLoop(s1, id.value, conn, lines[1..]) else (s1, []);
    var (s3, closing) := CleanupStep(s2, id, conn);
    (s3, registered + exchanged + closing, id)
  }

  // ---------------------------------------------------------------------------
  // Properties of the step functions.
  // ---------------------------------------------------------------------------

  /** Every handler step keeps the tables well formed. */
  lemma StepsKeepWellFormed(s: RelayState, id: Id, conn: Conn, line: Line, owner: Option<Id>)
    requires WellFormed(s)
    ensures WellFormed(RegisterStep(s, conn, line).0)
    ensures WellFormed(DispatchStep(s, id, conn, line).0)
    ensures WellFormed(CleanupStep(s, owner, conn).0)
  {
  }

  /**
   * A first line that is not a `register` object carrying an `id` registers
   * nothing and changes no table.
   */
  lemma RefusedFirstLineChangesNothing(s: RelayState, conn: Conn, line: Line)
    requires !(line.Object? && line.msg.kind == Some("register") && line.msg.id.Some?)
    ensures RegisterStep(s, conn, line).0 == s
    ensures RegisterStep(s, conn, line).2 == None
    ensures line.Malformed? ==> RegisterStep(s, conn, line).1 == [Write(conn, Error(InvalidJson)), Close(conn)]
    ensures line.Object? ==> RegisterStep(s, conn, line).1 == [Write(conn, Error(MustRegisterFirst)), Close(conn)]
  {
  }

  /**
   * Registration makes the new connection the only holder of the truncated
   * id, leaves every other registration and both chat tables alone, and
   * tells a previous holder it was signed in elsewhere before closing it.
   */
  lemma RegistrationEvictsPreviousHolder(s: RelayState, conn: Conn, msg: Msg, k: Id)
    requires msg.kind == Some("register") && msg.id.Some?
    ensures var (s', out, id) := RegisterStep(s, conn, Object(msg));
      && id == Some(Truncate(msg.id.value))
      && id.value in s'.clients && s'.clients[id.value] == conn
      && (k != id.value ==> (k in s'.clients <==> k in s.clients) && (k in s.clients ==> s'.clients[k] == s.clients[k]))
      && s'.sessions == s.sessions && s'.pending == s.pending
      && out[|out| - 1] == Write(conn, Registered(id.value))
      && (id.value in s.clients ==>
            out[..2] == [Write(s.clients[id.value], Info(SignedInElsewhere)), Close(s.clients[id.value])])
      && (id.value !in s.clients ==> |out| == 1)
  {
  }

  /**
   * After registration, a malformed line is answered with `invalid_json` and
   * the loop goes on; `ping` is answered with `pong`; an unknown type with
   * `unknown_type`. None of them changes a table.
   */
  lemma HarmlessLinesKeepConnection(s: RelayState, id: Id, conn: Conn, msg: Msg)
    requires msg.kind !in {Some("send"), Some("chat_request"), Some("chat_accept"), Some("chat_reject"), Some("chat_message")}
    ensures DispatchStep(s, id, conn, Malformed) == (s, [Write(conn, Error(InvalidJson))], false)
    ensures var (s', out, stop) := DispatchStep(s, id, conn, Object(msg));
      && s' == s && !stop
      && out == [Write(conn, if msg.kind == Some("ping") then Pong else Error(UnknownType))]
  {
  }

  /** Only registration and cleanup touch the registry. */
  lemma DispatchKeepsClients(s: RelayState, id: Id, conn: Conn, line: Line)
    ensures DispatchStep(s, id, conn, line).0.clients == s.clients
  {
  }

  /**
   * A `deliver` frame goes out only to the connection registered for a
   * non-empty target, carrying the sender's id; such a target always gets
   * it, followed by `sent` to the sender; otherwise the sender gets
   * `missing_to` or `nodeliver`.
   */
  lemma SendDeliversOnlyToRegistered(s: RelayState, id: Id, conn: Conn, to: Option<string>, payload: string)
    ensures var out := SendStep(s, id, conn, to, payload);
      && (forall a :: a in out && a.Write? && a.frame.Deliver? ==>
            Given(to) && to.value in s.clients && a == Write(s.clients[to.value], Deliver(id, payload)))
      && (Given(to) && to.value !in s.clients ==> out == [Write(conn, NoDeliver(to.value))])
      && (!Given(to) ==> out == [Write(conn, Error(MissingTo))])
      && (Given(to) && to.value in s.clients ==>
            out == [Write(s.clients[to.value], Deliver(id, payload)), Write(conn, Sent(to.value))])
  {
  }

  /**
   * `chat_request` checks that the target is registered before it looks at
   * either party's session: an unregistered target yields `nodeliver` even
   * when the requester is already chatting.
   */
  lemma RequestChecksRegistrationFirst(s: RelayState, id: Id, conn: Conn, t: Id)
    requires t != "" && t != id && t !in s.clients
    ensures ChatRequestStep(s, id, conn, Some(t)) == (s, [Write(conn, NoDeliver(t))])
  {
  }

  /** A request to oneself or to nobody is refused, and changes nothing. */
  lemma SelfRequestIsInvalid(s: RelayState, id: Id, conn: Conn, to: Option<string>)
    requires to == Some(id) || !Given(to)
    ensures ChatRequestStep(s, id, conn, to) == (s, [Write(conn, Error(InvalidChatTarget))])
  {
  }

  /**
   * A request to a registered target other than oneself: refused with
   * `already_in_chat`, changing nothing, when either party has a session;
   * otherwise the requester becomes the target's pending requester
   * (replacing any earlier one) and only the target is told.
   */
  lemma RequestToRegisteredTarget(s: RelayState, id: Id, conn: Conn, t: Id)
    requires t != "" && t != id && t in s.clients
    ensures var (s', out) := ChatRequestStep(s, id, conn, Some(t));
      && ((Holds(s.sessions, id) || Holds(s.sessions, t)) ==>
            s' == s && out == [Write(conn, Error(AlreadyInChat))])
      && (!(Holds(s.sessions, id) || Holds(s.sessions, t)) ==>
            && s'.pending == s.pending[t := id]
            && s'.sessions == s.sessions && s'.clients == s.clients
            && out == [Write(s.clients[t], ChatRequest(id))])
  {
  }

  /**
   * A later request to a still-pending target replaces the earlier
   * requester, and only the target hears about it.
   */
  lemma LaterRequestOverwrites(s0: RelayState, a: Id, c: Id, b: Id, ca: Conn, cb: Conn, cc: Conn)
    requires WellFormed(s0)
    requires a != "" && b != "" && c != "" && a != b && c != b && a != c
    requires b in s0.clients && s0.clients[b] == cb
    requires a !in s0.sessions && b !in s0.sessions && c !in s0.sessions
    ensures var (s1, o1) := ChatRequestStep(s0, a, ca, Some(b));
      var (s2, o2) := ChatRequestStep(s1, c, cc, Some(b));
      && s1.pending[b] == a
      && s2.pending[b] == c
      && o2 == [Write(cb, ChatRequest(c))]
  {
  }

  /**
   * `chat_accept` always drops the acceptor's pending request, and no
   * other. If the
   * requester is registered, both session entries are written as a pair;
   * otherwise no frame is sent and the sessions are untouched.
   */
  lemma AcceptWritesPair(s: RelayState, id: Id, conn: Conn)
    requires Holds(s.pending, id)
    ensures var from := s.pending[id];
      var (s', out) := ChatAcceptStep(s, id, conn);
      && s'.pending == s.pending - {id}
      && s'.clients == s.clients
      && (from in s.clients ==>
            && Paired(s'.sessions, id, from)
            && (forall k :: k in s.sessions && k != id && k != from ==> k in s'.sessions && s'.sessions[k] == s.sessions[k])
            && out == [Write(s.clients[from], ChatAccept(id)), Write(conn, ChatAccept(from))])
      && (from !in s.clients ==> s'.sessions == s.sessions && out == [])
  {
  }

  /** With no request pending for `id`, `chat_accept` fails and changes nothing. */
  lemma AcceptWithoutRequest(s: RelayState, id: Id, conn: Conn)
    requires !Holds(s.pending, id)
    ensures ChatAcceptStep(s, id, conn) == (s, [Write(conn, Error(NoPendingChat))])
  {
  }

  /**
   * `chat_reject` always drops the pending entry addressed to `id`, and no
   * other, and acknowledges; the requester is told first if and only if one
   * was pending and is still registered.
   */
  lemma RejectAlwaysAcknowledges(s: RelayState, id: Id, conn: Conn)
    ensures var (s', out) := ChatRejectStep(s, id, conn);
      && s'.pending == s.pending - {id}
      && s'.clients == s.clients && s'.sessions == s.sessions
      && 1 <= |out| <= 2
      && out[|out| - 1] == Write(conn, Info(ChatRejectedNotice))
      && (|out| == 2 <==> Holds(s.pending, id) && s.pending[id] in s.clients)
      && (|out| == 2 ==> out[0] == Write(s.clients[s.pending[id]], ChatReject(id)))
  {
  }

  /**
   * A `chat_message` is forwarded only between two ids that name each
   * other in the session table; the sender gets no reply then, and the
   * message is dropped if the peer is not registered. Otherwise the sender
   * gets `not_in_chat`.
   */
  lemma ChatMessageOnlyWithinPair(s: RelayState, id: Id, conn: Conn, to: Option<string>, payload: string)
    ensures var out := ChatMessageStep(s, id, conn, to, payload);
      && (forall a :: a in out && a.Write? && a.frame.ChatMessage? ==>
            to.Some? && Paired(s.sessions, id, to.value) && to.value in s.clients
            && a == Write(s.clients[to.value], ChatMessage(id, payload)))
      && (out == [Write(conn, Error(NotInChat))] <==> !(to.Some? && Paired(s.sessions, id, to.value)))
      && (to.Some? && Paired(s.sessions, id, to.value) && to.value !in s.clients ==> out == [])
      && (to.Some? && Paired(s.sessions, id, to.value) && to.value in s.clients ==>
            out == [Write(s.clients[to.value], ChatMessage(id, payload))])
  {
  }

  /**
   * The current owner's cleanup unregisters the id, removes its session
   * entry, and leaves no pending request that names it; every other
   * registration and every pending request not naming it survives. A
   * truthy peer loses its own session entry whatever that entry names, and
   * is told `chat ended with <id>` before the close when it is registered;
   * every other session entry survives.
   */
  lemma OwnerCleanupForgetsId(s: RelayState, me: Id, conn: Conn)
    requires Owns(s, Some(me), conn)
    ensures var (s', out) := CleanupStep(s, Some(me), conn);
      && me !in s'.clients && me !in s'.sessions
      && (forall k :: k in s'.pending ==> k != me && s'.pending[k] != me)
      && (forall k :: k in s.pending && k != me && s.pending[k] != me ==> k in s'.pending && s'.pending[k] == s.pending[k])
      && (forall k :: k in s.clients && k != me ==> k in s'.clients && s'.clients[k] == s.clients[k])
      && (Holds(s.sessions, me) ==> s.sessions[me] !in s'.sessions)
      && (forall k :: k in s.sessions && k != me && !(Holds(s.sessions, me) && k == s.sessions[me]) ==>
            k in s'.sessions && s'.sessions[k] == s.sessions[k])
      && (Holds(s.sessions, me) && s.sessions[me] != me && s.sessions[me] in s.clients ==>
            out == [Write(s.clients[s.sessions[me]], Info(ChatEndedPrefix + me)), Close(conn)])
      && (!(Holds(s.sessions, me) && s.sessions[me] != me && s.sessions[me] in s.clients) ==>
            out == [Close(conn)])
  {
  }

  /**
   * A handler that does not own its id only closes its connection: one that
   * never registered, that registered the empty id, or whose id is no longer
   * registered or now belongs to another connection. Every table stays as
   * it was.
   */
  lemma NonOwnerCleanupOnlyCloses(s: RelayState, id: Option<Id>, conn: Conn)
    requires !Owns(s, id, conn)
    ensures CleanupStep(s, id, conn) == (s, [Close(conn)])
  {
  }

  /**
   * Cleanup keeps the session table symmetric when it was.
   */
  lemma CleanupKeepsSymmetry(s: RelayState, id: Option<Id>, conn: Conn)
    requires WellFormed(s) && Symmetric(s.sessions)
    ensures Symmetric(CleanupStep(s, id, conn).0.sessions)
  {
    if Owns(s, id, conn) && id.value in s.sessions {
      var me, s' := id.value, CleanupStep(s, id, conn).0;
      var peer := s.sessions[me];
      forall k | k in s'.sessions
        ensures s'.sessions[k] in s'.sessions && s'.sessions[s'.sessions[k]] == k
      {
        assert k != me && k != peer && k in s.sessions;
        assert s.sessions[k] != me && s.sessions[k] != peer;
      }
    }
  }

  /**
   * `chat_accept` keeps the session table symmetric when neither the
   * acceptor nor the requester is already in a session.
   */
  lemma AcceptKeepsSymmetryWhenIdle(s: RelayState, id: Id, conn: Conn)
    requires WellFormed(s) && Symmetric(s.sessions)
    requires Holds(s.pending, id) ==> id !in s.sessions && s.pending[id] !in s.sessions
    ensures Symmetric(ChatAcceptStep(s, id, conn).0.sessions)
  {
  }

  /**
   * A full negotiation: `a` asks `b`, `b` accepts. Afterwards no request is
   * pending for `b`, both got `chat_accept`, and chat messages flow both ways.
   */
  lemma NegotiationOpensChat(s0: RelayState, a: Id, b: Id, ca: Conn, cb: Conn, p: string)
    requires WellFormed(s0)
    requires a != "" && b != "" && a != b
    requires a in s0.clients && s0.clients[a] == ca && b in s0.clients && s0.clients[b] == cb
    requires a !in s0.sessions && b !in s0.sessions
    ensures var (s1, o1) := ChatRequestStep(s0, a, ca, Some(b));
      var (s2, o2) := ChatAcceptStep(s1, b, cb);
      && o1 == [Write(cb, ChatRequest(a))]
      && o2 == [Write(ca, ChatAccept(b)), Write(cb, ChatAccept(a))]
      && b !in s2.pending
      && ChatMessageStep(s2, a, ca, Some(b), p) == [Write(cb, ChatMessage(a, p))]
      && ChatMessageStep(s2, b, cb, Some(a), p) == [Write(ca, ChatMessage(b, p))]
  {
  }

  /**
   * If `a` is chatting with `b` and `a`'s handler ends, `b` is told the chat
   * ended and a later `chat_message` from `b` to `a` gets `not_in_chat`.
   */
  lemma DisconnectEndsChat(s: RelayState, a: Id, b: Id, ca: Conn, cb: Conn, p: string)
    requires WellFormed(s) && Paired(s.sessions, a, b)
    requires a in s.clients && s.clients[a] == ca && b in s.clients && s.clients[b] == cb
    ensures var (s', out) := CleanupStep(s, Some(a), ca);
      && out == [Write(cb, Info(ChatEndedPrefix + a)), Close(ca)]
      && a !in s'.sessions && b !in s'.sessions
      && ChatMessageStep(s', b, cb, Some(a), p) == [Write(cb, Error(NotInChat))]
  {
  }

  /**
   * `chat_accept` does not re-check either party: `a` asks `b`, `c` asks
   * `a`, `a` accepts (pairing with `c`), then `b` accepts (pairing with `a`).
   * The session table is then not symmetric: `c` still names `a`, cannot
   * message `a`, and cannot start another chat.
   */
  lemma AcceptCanBreakSymmetry(s0: RelayState, a: Id, b: Id, c: Id, d: Id, ca: Conn, cb: Conn, cc: Conn, p: string)
    requires WellFormed(s0) && s0.sessions == map[]
    requires a != "" && b != "" && c != "" && a != b && b != c && a != c
    requires a in s0.clients && s0.clients[a] == ca
    requires b in s0.clients && s0.clients[b] == cb
    requires c in s0.clients && s0.clients[c] == cc
    requires d != "" && d != c && d in s0.clients
    ensures var (s1, _) := ChatRequestStep(s0, a, ca, Some(b));
      var (s2, _) := ChatRequestStep(s1, c, cc, Some(a));
      var (s3, _) := ChatAcceptStep(s2, a, ca);
      var (s4, _) := ChatAcceptStep(s3, b, cb);
      && Paired(s4.sessions, a, b)
      && c in s4.sessions && s4.sessions[c] == a
      && !Symmetric(s4.sessions)
      && ChatMessageStep(s4, c, cc, Some(a), p) == [Write(cc, Error(NotInChat))]
      && ChatRequestStep(s4, c, cc, Some(d)).1 == [Write(cc, Error(AlreadyInChat))]
  {
    var (s1, _) := ChatRequestStep(s0, a, ca, Some(b));
    var (s2, _) := ChatRequestStep(s1, c, cc, Some(a));
    var (s3, _) := ChatAcceptStep(s2, a, ca);
    var (s4, _) := ChatAcceptStep(s3, b, cb);
    assert s4.sessions[s4.sessions[c]] != c;
  }

  // ---------------------------------------------------------------------------
  // The relay: three tables updated in place by the handler steps.
  // ---------------------------------------------------------------------------

  /** The read loop never touches the registry and keeps the tables well formed. */
  lemma {:induction false} ReadLoopKeepsClients(s: RelayState, id: Id, conn: Conn, lines: seq<Line>)
    requires WellFormed(s)
    ensures ReadLoop(s, id, conn, lines).0.clients == s.clients
    ensures WellFormed(ReadLoop(s, id, conn, lines).0)
    decreases |lines|
  {
    var line := if lines == [] then Eof else lines[0];
    DispatchKeepsClients(s, id, conn, line);
    StepsKeepWellFormed(s, id, conn, line, None);
    var (s', out, stop) := DispatchStep(s, id, conn, line);
    if !stop && lines != [] {
      ReadLoopKeepsClients(s', id, conn, lines[1..]);
    }
  }

  /**
   * A whole connection ends by closing it and keeps the tables well formed.
   * A refused connection changes no table. A connection registered under a
   * non-empty id leaves the registry as it was minus that id (a previous
   * holder stays evicted), no session entry for the id, and no pending entry
   * naming it. One registered under the empty id stays registered, since
   * cleanup tests the id's truthiness.
   */
  lemma ConnectionForgetsItsId(s: RelayState, conn: Conn, lines: seq<Line>)
    requires WellFormed(s) && conn !in s.clients.Values
    ensures var (s', out, id) := ConnectionRun(s, conn, lines);
      && WellFormed(s')
      && |out| > 0 && out[|out| - 1] == Close(conn)
      && (id.None? ==> s' == s)
      && (id.Some? && id.value != "" ==>
            && s'.clients == s.clients - {id.value}
            && conn !in s'.clients.Values
            && id.value !in s'.sessions
            && (forall k :: k in s'.pending ==> k != id.value && s'.pending[k] != id.value))
      && (id == Some("") ==> s'.clients == s.clients[id.value := conn])
  {
    var (s1, registered, id) := RegisterStep(s, conn, if lines == [] then Eof else lines[0]);
    StepsKeepWellFormed(s, "", conn, if lines == [] then Eof else lines[0], None);
    if id.Some? {
      ReadLoopKeepsClients(s1, id.value, conn, lines[1..]);
      var (s2, exchanged) := ReadLoop(s1, id.value, conn, lines[1..]);
      StepsKeepWellFormed(s2, "", conn, Eof, id);
      if id.value != "" {
        OwnerCleanupForgetsId(s2, id.value, conn);
        var s3 := CleanupStep(s2, id, conn).0;
        assert s3.clients == s.clients - {id.value};
      } else {
        NonOwnerCleanupOnlyCloses(s2, id, conn);
      }
    } else {
      StepsKeepWellFormed(s1, "", conn, Eof, id);
    }
  }

  class Relay {
    var clients: map<Id, Conn>
    var sessions: map<Id, Id>
    var pending: map<Id, Id>

    function State(): RelayState
      reads this
    {
      RelayState(clients, sessions, pending)
    }

    ghost predicate Valid()
      reads this
    {
      WellFormed(State())
    }

    /** The tables as the server starts: all empty. */
    constructor ()
      ensures Valid()
      ensures State() == RelayState(map[], map[], map[])
    {
      clients, sessions, pending := map[], map[], map[];
    }

    /** Registration: the first line of a connection. */
    method Register(conn: Conn, line: Line) returns (out: seq<Action>, id: Option<Id>)
      requires Valid()
      modifies this
      ensures Valid()
      ensures (State(), out, id) == RegisterStep(old(State()), conn, line)
    {
      match line
      case Eof =>
        out, id := [Close(conn)], None;
      case Malformed =>
        out, id := [Write(conn, Error(InvalidJson)), Close(conn)], None;
      case NotObject =>
        out, id := [Write(conn, Error(ServerException))], None;
      case Object(msg) =>
        if msg.kind != Some("register") || msg.id.None? {
          out, id := [Write(conn, Error(MustRegisterFirst)), Close(conn)], None;
          return;
        }
        var clientId := Truncate(msg.id.value);
        var evict := [];
        if clientId in clients {
          var previous := clients[clientId];
          evict := [Write(previous, Info(SignedInElsewhere)), Close(previous)];
        }
        clients := clients[clientId := conn];
        out := evict + [Write(conn, Registered(clientId))];
        id := Some(clientId);
    }

    /** A `send` frame: deliver to the target if it is registered. */
    method HandleSend(id: Id, conn: Conn, to: Option<string>, payload: string) returns (out: seq<Action>)
      ensures out == SendStep(State(), id, conn, to, payload)
    {
      if !Given(to) {
        return [Write(conn, Error(MissingTo))];
      }
      if to.value !in clients {
        out := [Write(conn, NoDeliver(to.value))];
      } else {
        var target := clients[to.value];
        out := [Write(target, Deliver(id, payload))];
        out := out + [Write(conn, Sent(to.value))];
      }
    }

    /** A `chat_request` frame: record `id` as the pending requester of the target. */
    method HandleChatRequest(id: Id, conn: Conn, to: Option<string>) returns (out: seq<Action>)
      requires Valid()
      modifies this
      ensures Valid()
      ensures (State(), out) == ChatRequestStep(old(State()), id, conn, to)
    {
      if !Given(to) || to.value == id {
        return [Write(conn, Error(InvalidChatTarget))];
      }
      if to.value !in clients {
        out := [Write(conn, NoDeliver(to.value))];
      } else if Holds(sessions, id) || Holds(sessions, to.value) {
        out := [Write(conn, Error(AlreadyInChat))];
      } else {
        pending := pending[to.value := id];
        out := [Write(clients[to.value], ChatRequest(id))];
      }
    }

    /** A `chat_accept` frame: pair `id` with its pending requester. */
    method HandleChatAccept(id: Id, conn: Conn) returns (out: seq<Action>)
      requires Valid()
      modifies this
      ensures Valid()
      ensures (State(), out) == ChatAcceptStep(old(State()), id, conn)
    {
      if !Holds(pending, id) {
        return [Write(conn, Error(NoPendingChat))];
      }
      var from := pending[id];
      out := [];
      if from in clients {
        sessions := sessions[id := from];
        sessions := sessions[from := id];
        out := [Write(clients[from], ChatAccept(id)), Write(conn, ChatAccept(from))];
      }
      pending := pending - {id};
    }

    /** A `chat_reject` frame: drop the pending request addressed to `id`. */
    method HandleChatReject(id: Id, conn: Conn) returns (out: seq<Action>)
      requires Valid()
      modifies this
      ensures Valid()
      ensures (State(), out) == ChatRejectStep(old(State()), id, conn)
    {
      out := [];
      if Holds(pending, id) {
        var from := pending[id];
        if from in clients {
          out := [Write(clients[from], ChatReject(id))];
        }
      }
      pending := pending - {id};
      out := out + [Write(conn, Info(ChatRejectedNotice))];
    }

    /** A `chat_message` frame: forward it only inside an established pair. */
    method HandleChatMessage(id: Id, conn: Conn, to: Option<string>, payload: string) returns (out: seq<Action>)
      ensures out == ChatMessageStep(State(), id, conn, to, payload)
    {
      if to.Some? && id in sessions && sessions[id] == to.value && to.value in sessions && sessions[to.value] == id {
        out := [];
        if to.value in clients {
          out := [Write(clients[to.value], ChatMessage(id, payload))];
        }
      } else {
        out := [Write(conn, Error(NotInChat))];
      }
    }

    /** One line read from the registered connection `conn` of `id`. */
    method Dispatch(id: Id, conn: Conn, line: Line) returns (out: seq<Action>, stop: bool)
      requires Valid()
      modifies this
      ensures Valid()
      ensures (State(), out, stop) == DispatchStep(old(State()), id, conn, line)
    {
      match line
      case Eof =>
        out, stop := [], true;
      case Malformed =>
        out, stop := [Write(conn, Error(InvalidJson))], false;
      case NotObject =>
        out, stop := [Write(conn, Error(ServerException))], true;
      case Object(msg) =>
        stop := false;
        var payload := msg.payload.GetOr("");
        if msg.kind == Some("send") {
          out := HandleSend(id, conn, msg.to, payload);
        } else if msg.kind == Some("chat_request") {
          out := HandleChatRequest(id, conn, msg.to);
        } else if msg.kind == Some("chat_accept") {
          out := HandleChatAccept(id, conn);
        } else if msg.kind == Some("chat_reject") {
          out := HandleChatReject(id, conn);
        } else if msg.kind == Some("chat_message") {
          out := HandleChatMessage(id, conn, msg.to, payload);
        } else if msg.kind == Some("ping") {
          out := [Write(conn, Pong)];
        } else {
          out := [Write(conn, Error(UnknownType))];
        }
    }

    /** The cleanup at the end of every handler, then the connection is closed. */
    method Cleanup(id: Option<Id>, conn: Conn) returns (out: seq<Action>)
      requires Valid()
      modifies this
      ensures Valid()
      ensures (State(), out) == CleanupStep(old(State()), id, conn)
    {
      ghost var s0 := State();
      out := [];
      if id.Some? && id.value != "" && id.value in clients && clients[id.value] == conn {
        var me := id.value;
        clients := clients - {me};
        if me !in sessions {
          assert sessions - {me} == sessions;
        } else {
          var peer := sessions[me];
          sessions := sessions - {me};
          if peer != "" {
            sessions := sessions - {peer};
            if peer in clients {
              out := [Write(clients[peer], Info(ChatEndedPrefix + me))];
            }
          }
        }
        assert out + [Close(conn)] == CleanupStep(s0, id, conn).1;
        // Walk a snapshot of the pending table, dropping each entry that names me.
        var snapshot := pending;
        var keys := snapshot.Keys;
        while keys != {}
          invariant clients == CleanupStep(s0, id, conn).0.clients
          invariant sessions == CleanupStep(s0, id, conn).0.sessions
          invariant keys <= snapshot.Keys
          invariant forall k :: k in pending <==> k in snapshot && (k in keys || (k != me && snapshot[k] != me))
          invariant forall k :: k in pending ==> pending[k] == snapshot[k]
          decreases keys
        {
          var k :| k in keys;
          if k == me || snapshot[k] == me {
            pending := pending - {k};
          }
          keys := keys - {k};
        }
        assert pending == DropMentions(snapshot, me);
        assert State() == CleanupStep(s0, id, conn).0;
      }
      StepsKeepWellFormed(s0, "", conn, Eof, id);
      out := out + [Close(conn)];
      assert State() == CleanupStep(s0, id, conn).0;
      assert out == CleanupStep(s0, id, conn).1;
    }

    /**
     * One connection handled from start to end with no other connection's
     * steps in between: registration, the read loop over `lines` (running out
     * of lines is end of stream), then the cleanup.
     */
    method HandleClient(conn: Conn, lines: seq<Line>) returns (out: seq<Action>, id: Option<Id>)
      requires Valid()
      requires conn !in clients.Values
      modifies this
      ensures Valid()
      ensures (State(), out, id) == ConnectionRun(old(State()), conn, lines)
      ensures |out| > 0 && out[|out| - 1] == Close(conn)
      ensures id.None? ==> State() == old(State())
      ensures id.Some? && id.value != "" ==>
        && clients == old(clients) - {id.value}
        && conn !in clients.Values
        && id.value !in sessions
        && (forall k :: k in pending ==> k != id.value && pending[k] != id.value)
      ensures id == Some("") ==> clients == old(clients)[id.value := conn]
    {
      ghost var s0 := State();
      var first := if |lines| > 0 then lines[0] else Eof;
      out, id := Register(conn, first);
      ghost var s1, registered := State(), out;
      var exchanged := [];
      if id.Some? {
        exchanged := ReadLines(id.value, conn, lines[1..]);
      }
      assert (State(), exchanged) == if id.Some? then ReadLoop(s1, id.value, conn, lines[1..]) else (s1, []);
      var rest := Cleanup(id, conn);
      out := out + exchanged + rest;
      ConnectionForgetsItsId(s0, conn, lines);
    }

    /**
     * The read loop of a registered connection: dispatch each line until one
     * ends the loop; running out of lines is end of stream.
     */
    method ReadLines(id: Id, conn: Conn, lines: seq<Line>) returns (out: seq<Action>)
      requires Valid()
      modifies this
      ensures Valid()
      ensures (State(), out) == ReadLoop(old(State()), id, conn, lines)
    {
      ghost var target := ReadLoop(State(), id, conn, lines);
      out := [];
      var i, stop := 0, false;
      assert out + target.1 == target.1;
      while !stop
        invariant Valid()
        invariant 0 <= i <= |lines| + 1
        invariant !stop ==> i <= |lines|
        invariant !stop ==> target == (ReadLoop(State(), id, conn, lines[i..]).0, out + ReadLoop(State(), id, conn, lines[i..]).1)
        invariant stop ==> target == (State(), out)
        decreases |lines| + 1 - i, !stop
      {
        var line := if i < |lines| then lines[i] else Eof;
        if i < |lines| {
          assert lines[i..][1..] == lines[i + 1..];
        }
        ghost var before, done := State(), out;
        var more;
        more, stop := Dispatch(id, conn, line);
        out := out + more;
        i := i + 1;
        if !stop {
          var after := ReadLoop(State(), id, conn, lines[i..]);
          assert ReadLoop(before, id, conn, lines[i - 1..]) == (after.0, more + after.1);
          assert done + (more + after.1) == out + after.1;
        }
      }
    }
  }
}

=== FILE: widgets.dfy ===
/**
 * Clickable buttons and the modal dialog that holds a row of them.
 */
module Widgets {
  import opened Wrappers

  /** A button's screen area: top row, left column, height and width. */
  datatype Bounds = Bounds(y: int, x: int, h: int, w: int)

  /**
   * The selection after `next`: Python's `(i + 1) % n`. For a positive
   * modulus Python's `%` and Dafny's `%` agree (neither is ever negative).
   */
  function NextIndex(i: int, n: int): (r: int)
    requires n > 0
    ensures 0 <= r < n
    ensures 0 <= i < n - 1 ==> r == i + 1
    ensures i == n - 1 ==> r == 0
  {
    (i + 1) % n
  }

  /** The selection after `prev`: Python's `(i - 1) % n`, which wraps 0 to n - 1. */
  function PrevIndex(i: int, n: int): (r: int)
    requires n > 0
    ensures 0 <= r < n
    ensures 0 < i < n ==> r == i - 1
    ensures i == 0 ==> r == n - 1
  {
    (i - 1) % n
  }

  /** `prev` undoes `next` and `next` undoes `prev` on an in-range selection. */
  lemma PrevUndoesNext(i: int, n: int)
    requires 0 <= i < n
    ensures PrevIndex(NextIndex(i, n), n) == i
    ensures NextIndex(PrevIndex(i, n), n) == i
  {
  }

  /** The selection after `k` presses of `next`. */
  function Advance(i: int, n: int, k: nat): int
    requires n > 0
  {
    if k == 0 then i else NextIndex(Advance(i, n, k - 1), n)
  }

  /** Presses of `next` that stay short of the end move the selection one place each. */
  lemma {:induction false} AdvanceWithoutWrap(i: int, n: int, k: nat)
    requires 0 <= i && i + k < n
    ensures Advance(i, n, k) == i + k
  {
    if k > 0 {
      AdvanceWithoutWrap(i, n, k - 1);
    }
  }

  /** `a + b` presses are `a` presses followed by `b` presses. */
  lemma {:induction false} AdvanceSplits(i: int, n: int, a: nat, b: nat)
    requires n > 0
    ensures Advance(i, n, a + b) == Advance(Advance(i, n, a), n, b)
  {
    if b > 0 {
      AdvanceSplits(i, n, a, b - 1);
    }
  }

  /** Pressing `next` once per button brings the selection back to where it was. */
  lemma FullCycle(i: int, n: int)
    requires 0 <= i < n
    ensures Advance(i, n, n) == i
  {
    AdvanceSplits(i, n, n - i, i);
    AdvanceWithoutWrap(i, n, n - i - 1);
    assert Advance(i, n, n - i) == 0;
    AdvanceWithoutWrap(0, n, i);
  }

  /** A labelled button; `label` is a reserved word in Dafny, so the label is `text`. */
  class Button {
    const text: string
    var bounds: Bounds

    /** A button starts with empty bounds, so nothing is inside it. */
    constructor (text: string)
      ensures this.text == text
      ensures bounds == Bounds(0, 0, 0, 0)
      ensures forall my, mx :: !Contains(my, mx)
    {
      this.text := text;
      bounds := Bounds(0, 0, 0, 0);
    }

    /** Records where the button was drawn. */
    method SetBounds(y: int, x: int, h: int, w: int)
      modifies this
      ensures bounds == Bounds(y, x, h, w)
      ensures forall my, mx :: Contains(my, mx) <==> y <= my < y + h && x <= mx < x + w
    {
      bounds := Bounds(y, x, h, w);
    }

    /**
     * Half-open membership: the point lies at a row offset in [0, h) and a
     * column offset in [0, w) from the top-left corner; bounds with no
     * height or no width contain nothing.
     */
    predicate Contains(my: int, mx: int): (r: bool)
      reads this
      ensures r <==> 0 <= my - bounds.y < bounds.h && 0 <= mx - bounds.x < bounds.w
      ensures bounds.h <= 0 || bounds.w <= 0 ==> !r
    {
      var Bounds(y, x, h, w) := bounds;
      y <= my < y + h && x <= mx < x + w
    }
  }

  class Modal {
    const title: string
    const message: string
    const buttons: seq<Button>
    var selected: int

    /** The selection names a button, or is 0 when there are none. */
    ghost predicate Valid()
      reads this
    {
      if |buttons| == 0 then selected == 0 else 0 <= selected < |buttons|
    }

    constructor (title: string, message: string, buttons: seq<Button>)
      ensures Valid()
      ensures this.title == title && this.message == message
      ensures this.buttons == buttons && selected == 0
    {
      this.title := title;
      this.message := message;
      this.buttons := buttons;
      selected := 0;
    }

    /** Select the next button, wrapping from the last to the first. */
    method Next()
      requires |buttons| > 0
      modifies this
      ensures Valid()
      ensures selected == NextIndex(old(selected), |buttons|)
    {
      selected := (selected + 1) % |buttons|;
    }

    /** Select the previous button, wrapping from the first to the last. */
    method Prev()
      requires |buttons| > 0
      modifies this
      ensures Valid()
      ensures selected == PrevIndex(old(selected), |buttons|)
    {
      selected := (selected - 1) % |buttons|;
    }

    /** `hit` is the first button, in row order, that contains the point. */
    ghost predicate IsFirstHit(my: int, mx: int, hit: Option<nat>)
      reads this, buttons
    {
      match hit
      case None => forall j :: 0 <= j < |buttons| ==> !buttons[j].Contains(my, mx)
      case Some(i) =>
        && i < |buttons|
        && buttons[i].Contains(my, mx)
        && forall j :: 0 <= j < i ==> !buttons[j].Contains(my, mx)
    }

    /**
     * The click loop of `handle_key` in ui/curses_ui.py: scan the buttons in
     * order for the first that contains the clicked point. It lives here
     * because it reads only the modal and its buttons.
     */
    method FindButton(my: int, mx: int) returns (hit: Option<nat>)
      ensures IsFirstHit(my, mx, hit)
    {
      var i := 0;
      while i < |buttons|
        invariant 0 <= i <= |buttons|
        invariant forall j :: 0 <= j < i ==> !buttons[j].Contains(my, mx)
      {
        if buttons[i].Contains(my, mx) {
          return Some(i);
        }
        i := i + 1;
      }
      hit := None;
    }
  }
}

=== FILE: wrappers.dfy ===
/** Optional values, used for absent JSON fields and for Python's `None`. */
module Wrappers {

  datatype Option<+T> = None | Some(value: T) {

    /** The value, or `default` when there is none (Python's `dict.get(k, default)`). */
    function GetOr(default: T): T
    {
      match this
      case Some(v) => v
      case None => default
    }
  }
}
